=== FILE: README.md ===
# GeminiMQTT's MQTT layer in Dafny

This project models the MQTT core of the GeminiMQTT Android app (Kotlin) and proves
properties of it. The core is four classes:

- `MqttTopicUtils` and `MqttConstants`: topic validation and device topics.
- `MqttRepositoryImpl`: connection state, the subscription set, and calls into the
  HiveMQ client.
- `MqttUseCase` and `MqttResult`: validation in front of the repository.
- `MqttViewModel`: the state the screen shows.

Modules, one per file:

| module | file | models |
|---|---|---|
| `Nullable` | nullable.dfy | Kotlin's nullable values (`Option`) |
| `KotlinText` | kotlin_text.dfy | the Kotlin string functions the core relies on: `length` in UTF-16 units, `isBlank`, `indexOf`, `contains`, `substringBefore/After`, `split`, `toIntOrNull` |
| `MqttUtils` | mqtt_utils.dfy | `MqttConstants`, `MqttTopicUtils` |
| `MqttModels` | mqtt_models.dfy | `MqttConnectionState`, `MqttConnectionConfig`, `MqttMessage` |
| `MqttRepository` | mqtt_repository.dfy | `MqttRepositoryImpl` |
| `MqttUseCase` | mqtt_use_case.dfy | `MqttUseCase`, `MqttResult` |
| `MqttViewModel` | mqtt_view_model.dfy | `MqttViewModel` |

How the model works:

- **The repository is a value.** `Repo` holds the connection state, whether a client
  handle is held, the stored configuration and the subscribed topics. The topics are in
  insertion order with no repeats, as Kotlin's `mutableSetOf` keeps them.
- **Operations are pure.** Every operation takes the outcome the HiveMQ future would
  complete with (`TransportOutcome`: normal completion, or an exception whose message may
  be null). It returns the new record, the `Result` it hands back, and the requests it
  sent to the client. An empty request list means the client was never called.
- **The view model's handlers** are the same kind of transition, over a `ViewState` and
  the repository together.
- **The list operations** (`subscribe(topics)`, `unsubscribe(topics)`) are methods with
  loops. They take one outcome per topic.
- **Both `isValidBrokerUrl` predicates have one definition.** The use case's and the view
  model's are textually identical, so both are modelled by `MqttUseCase.IsValidBrokerUrl`.
- **Kotlin default arguments are Dafny default parameters,** placed last, with the same
  values: QoS 1, not retained, a retained device status, and no device id.
- **A failed `disconnect` keeps the subscriptions, the handle and the configuration.** The
  exception resumed at MqttRepositoryImpl.kt:139-142 skips lines 156-157, so only the
  state changes, to ERROR.
- **A failed connect keeps the client handle.** Nothing on the failure path at
  MqttRepositoryImpl.kt:124-128 clears it, so a later subscribe or publish still reaches
  the client.

## Model

| member | source | states |
|---|---|---|
| `KotlinText.Utf16Length` | mqtt/src/main/java/life/munay/mqtt/utils/MqttUtils.kt:34 | `String.length` counts UTF-16 units. It lies between the number of code points and twice that. |
| `KotlinText.Utf16LengthAppend` | mqtt/src/main/java/life/munay/mqtt/utils/MqttUtils.kt:34 | The UTF-16 length of a concatenation is the sum of the lengths. |
| `KotlinText.Utf16LengthBasic` | mqtt/src/main/java/life/munay/mqtt/utils/MqttUtils.kt:34 | For text in the Basic Multilingual Plane, the UTF-16 length is the number of characters. |
| `KotlinText.IndexOf` | mqtt/src/main/java/life/munay/mqtt/utils/MqttUtils.kt:51 | `indexOf` returns the first position where the needle occurs, or -1 when it occurs nowhere. |
| `KotlinText.ContainsChar` | mqtt/src/main/java/life/munay/mqtt/utils/MqttUtils.kt:31-32 | `contains` with a one-character needle is membership. |
| `KotlinText.IsBlank` | mqtt/src/main/java/life/munay/mqtt/usecases/MqttUseCase.kt:173 | Definition: `isBlank` holds when every character is whitespace, so the empty string is blank. |
| `KotlinText.SubstringBefore` | mqtt/src/main/java/life/munay/mqtt/repositories/MqttRepositoryImpl.kt:320 | Without the delimiter, the missing-delimiter value is returned. Otherwise the result is the prefix of the input that ends where the first occurrence of the delimiter starts. |
| `KotlinText.SubstringAfter` | mqtt/src/main/java/life/munay/mqtt/repositories/MqttRepositoryImpl.kt:342 | The text before the delimiter, the delimiter and the text after it rebuild the input. Without the delimiter, the missing-delimiter value is returned. |
| `KotlinText.SplitAtFirstChar` | mqtt/src/main/java/life/munay/mqtt/repositories/MqttRepositoryImpl.kt:319-320 | Cutting at the first occurrence of a character rebuilds the input, and the part before holds no occurrence. |
| `KotlinText.Split` | mqtt/src/main/java/life/munay/mqtt/utils/MqttUtils.kt:79 | `split` on one character keeps empty fields. No field holds the delimiter, and joining the fields gives back the input. |
| `KotlinText.SplitJoin` | mqtt/src/main/java/life/munay/mqtt/utils/MqttUtils.kt:79 | Splitting delimiter-free fields joined by the delimiter returns exactly those fields. |
| `KotlinText.SplitAppend` | mqtt/src/main/java/life/munay/mqtt/utils/MqttUtils.kt:79 | Splitting `a + d + b` gives the fields of `a` followed by the fields of `b`. |
| `KotlinText.ToIntOrNull` | mqtt/src/main/java/life/munay/mqtt/repositories/MqttRepositoryImpl.kt:342 | `toIntOrNull` yields a value only for an optional sign followed by digits. The value is always in 32-bit `Int` range. |
| `KotlinText.ToIntOrNullOfDigits` | mqtt/src/main/java/life/munay/mqtt/repositories/MqttRepositoryImpl.kt:342 | An optional `+` or `-` followed by digits reads as its signed decimal value exactly when that value is in 32-bit `Int` range, and as null otherwise. |
| `KotlinText.DecimalRoundTrip` | mqtt/src/main/java/life/munay/mqtt/repositories/MqttRepositoryImpl.kt:342 | Every `Int`, printed in decimal, reads back as itself. |
| `KotlinText.NoNumberAfterNonDigit` | mqtt/src/main/java/life/munay/mqtt/repositories/MqttRepositoryImpl.kt:356 | Text starting with anything other than a digit or a sign is not a number. |
| `MqttUtils.IsValidPublishTopic` | mqtt/src/main/java/life/munay/mqtt/utils/MqttUtils.kt:30-35 | Definition: not blank, no `+` or `#`, no leading `$`, and at most 65535 UTF-16 units. |
| `MqttUtils.IsValidSubscriptionTopic` | mqtt/src/main/java/life/munay/mqtt/utils/MqttUtils.kt:40-44 | Definition: not blank, no leading `$`, at most 65535 UTF-16 units, and wildcards placed as the wildcard check demands. |
| `MqttUtils.IsValidWildcardUsage` | mqtt/src/main/java/life/munay/mqtt/utils/MqttUtils.kt:49-66 | Definition: no `#` except as the last character after `/` or alone, and every `+` with `/` or a string end on both sides. |
| `MqttUtils.BuildDeviceTopic` | mqtt/src/main/java/life/munay/mqtt/utils/MqttUtils.kt:71-73 | Definition: `device/<id>/<subtopic>`. |
| `MqttUtils.PublishTopicRule` | mqtt/src/main/java/life/munay/mqtt/utils/MqttUtils.kt:30-35 | A publish topic is valid exactly when it is not blank, holds no `+` and no `#`, does not start with `$`, and is at most 65535 UTF-16 units long. |
| `MqttUtils.WildcardPlacement` | mqtt/src/main/java/life/munay/mqtt/utils/MqttUtils.kt:49-66 | The wildcard check holds exactly when every `#` is the last character, with `/` or the start before it, and every `+` has `/` or a string end on both sides. |
| `MqttUtils.MultiLevelWildcardAtMostOnce` | mqtt/src/main/java/life/munay/mqtt/utils/MqttUtils.kt:51-55 | A filter that passes the wildcard check holds `#` at most once. |
| `MqttUtils.DollarTopicsRefused` | mqtt/src/main/java/life/munay/mqtt/utils/MqttUtils.kt:33-41 | A topic starting with `$` is refused by both validators. |
| `MqttUtils.SystemPatternRefused` | mqtt/src/main/java/life/munay/mqtt/utils/MqttUtils.kt:22 | The declared `$SYS/#` pattern is itself refused by both validators. |
| `MqttUtils.PublishTopicIsSubscriptionTopic` | mqtt/src/main/java/life/munay/mqtt/utils/MqttUtils.kt:30-66 | Every valid publish topic is also a valid subscription filter. |
| `MqttUtils.ExtractDeviceId` | mqtt/src/main/java/life/munay/mqtt/utils/MqttUtils.kt:78-85 | A returned id holds no `/`, and the topic starts with `device/<id>/`. |
| `MqttUtils.DeviceIdCharacterization` | mqtt/src/main/java/life/munay/mqtt/utils/MqttUtils.kt:78-85 | `extractDeviceId` returns `id` exactly when the topic is `device/<id>/<rest>` with a `/`-free id. |
| `MqttUtils.DeviceTopicLevels` | mqtt/src/main/java/life/munay/mqtt/utils/MqttUtils.kt:71-79 | A built device topic splits into `device`, the fields of the id, and the fields of the subtopic. |
| `MqttUtils.DeviceTopicRoundTrip` | mqtt/src/main/java/life/munay/mqtt/utils/MqttUtils.kt:71-85 | Extracting the id from a built device topic gives the id back, whenever the id holds no `/`. |
| `MqttUtils.DeviceTopicLength` | mqtt/src/main/java/life/munay/mqtt/utils/MqttUtils.kt:71-73 | A device topic is 8 UTF-16 units longer than its two parts together. |
| `MqttUtils.DeviceTopicPublishable` | mqtt/src/main/java/life/munay/mqtt/utils/MqttUtils.kt:30-35 | A built device topic is a valid publish topic exactly when neither part holds a wildcard and the whole is within the length limit. |
| `MqttUtils.SingleLevelBetween` | mqtt/src/main/java/life/munay/mqtt/utils/MqttUtils.kt:57-63 | A lone `+` level between wildcard-free text passes the wildcard check. |
| `MqttUtils.LevelsPublishable` | mqtt/src/main/java/life/munay/mqtt/utils/MqttUtils.kt:30-35 | Two wildcard-free parts joined by `/` make a valid publish topic when the first starts with neither whitespace nor `$` and the whole fits the length limit. |
| `MqttUtils.WildcardFilter` | mqtt/src/main/java/life/munay/mqtt/utils/MqttUtils.kt:40-44 | A filter that passes the wildcard check, starts with neither whitespace nor `$` and fits the length limit is a valid subscription filter. |
| `MqttUtils.SingleLevelFirst` | mqtt/src/main/java/life/munay/mqtt/utils/MqttUtils.kt:57-63 | A leading `+/` before wildcard-free text passes the wildcard check. |
| `MqttUtils.SingleLevelLast` | mqtt/src/main/java/life/munay/mqtt/utils/MqttUtils.kt:57-63 | A trailing `/+` after wildcard-free text passes the wildcard check. |
| `MqttUtils.MultiLevelLast` | mqtt/src/main/java/life/munay/mqtt/utils/MqttUtils.kt:51-55 | A trailing `/#` after wildcard-free text passes the wildcard check. |
| `MqttUtils.LoneWildcards` | mqtt/src/main/java/life/munay/mqtt/utils/MqttUtils.kt:49-66 | `+` alone and `#` alone pass the wildcard check. |
| `MqttUtils.DeviceWildcardFilter` | mqtt/src/main/java/life/munay/mqtt/utils/MqttUtils.kt:40-44 | `device/+/<subtopic>` is a valid filter when the subtopic is wildcard-free and short enough. |
| `MqttUtils.DevicePatternsAreValidFilters` | mqtt/src/main/java/life/munay/mqtt/utils/MqttUtils.kt:20-21 | `device/+/status` and `device/+/data` are valid subscription filters. |
| `MqttUtils.OtherFirstLevel` | mqtt/src/main/java/life/munay/mqtt/utils/MqttUtils.kt:80 | A topic that does not start with `d` names no device. |
| `MqttUtils.RejectedPublishTopics` | mqtt/src/test/java/life/munay/mqtt/utils/MqttTopicUtilsTest.kt:19-22 | The empty topic, topics with `+` or `#`, and `$SYS/broker/load` are not valid publish topics. |
| `MqttUtils.RejectedSingleLevelWildcards` | mqtt/src/test/java/life/munay/mqtt/utils/MqttTopicUtilsTest.kt:68-69 | `device/+data` and `device/data+` are refused as filters. |
| `MqttUtils.RejectedInnerMultiLevelWildcard` | mqtt/src/test/java/life/munay/mqtt/utils/MqttTopicUtilsTest.kt:70 | `device/#/data` is refused as a filter. |
| `MqttUtils.RejectedGluedMultiLevelWildcard` | mqtt/src/test/java/life/munay/mqtt/utils/MqttTopicUtilsTest.kt:71 | `device/data#` is refused as a filter. |
| `MqttUtils.RejectedSystemFilter` | mqtt/src/test/java/life/munay/mqtt/utils/MqttTopicUtilsTest.kt:34-35 | The empty filter and `$SYS/broker/load` are refused as filters. |
| `MqttUtils.BuiltDeviceTopics` | mqtt/src/test/java/life/munay/mqtt/utils/MqttTopicUtilsTest.kt:42-43 | `buildDeviceTopic` gives `device/123/status` and `device/sensor001/data`. |
| `MqttUtils.AcceptedDeviceTopic` | mqtt/src/test/java/life/munay/mqtt/utils/MqttTopicUtilsTest.kt:14 | `device/123/data` is a valid publish topic, and also a valid filter (line 28). |
| `MqttUtils.AcceptedPublishTopic` | mqtt/src/test/java/life/munay/mqtt/utils/MqttTopicUtilsTest.kt:15 | `home/temperature` is a valid publish topic. |
| `MqttUtils.AcceptedLongerPublishTopic` | mqtt/src/test/java/life/munay/mqtt/utils/MqttTopicUtilsTest.kt:16 | `sensor/humidity/living-room` is a valid publish topic. |
| `MqttUtils.AcceptedLoneWildcards` | mqtt/src/test/java/life/munay/mqtt/utils/MqttTopicUtilsTest.kt:57-63 | `+` and `#` are valid filters. |
| `MqttUtils.AcceptedSingleLevelFilter` | mqtt/src/test/java/life/munay/mqtt/utils/MqttTopicUtilsTest.kt:31 | `home/+/temperature` is a valid filter. |
| `MqttUtils.AcceptedSensorFilter` | mqtt/src/test/java/life/munay/mqtt/utils/MqttTopicUtilsTest.kt:60 | `home/+/sensor` is a valid filter. |
| `MqttUtils.AcceptedTrailingSingleLevelFilter` | mqtt/src/test/java/life/munay/mqtt/utils/MqttTopicUtilsTest.kt:58 | `device/+` is a valid filter. |
| `MqttUtils.AcceptedLeadingSingleLevelFilter` | mqtt/src/test/java/life/munay/mqtt/utils/MqttTopicUtilsTest.kt:59 | `+/temperature` is a valid filter. |
| `MqttUtils.AcceptedMultiLevelFilter` | mqtt/src/test/java/life/munay/mqtt/utils/MqttTopicUtilsTest.kt:30 | `device/#` is a valid filter (also line 64). |
| `MqttUtils.AcceptedRoomMultiLevelFilter` | mqtt/src/test/java/life/munay/mqtt/utils/MqttTopicUtilsTest.kt:65 | `home/living-room/#` is a valid filter. |
| `MqttUtils.ExtractedDeviceId` | mqtt/src/test/java/life/munay/mqtt/utils/MqttTopicUtilsTest.kt:48 | `device/123/status` yields the id `123`. |
| `MqttUtils.ExtractedSensorId` | mqtt/src/test/java/life/munay/mqtt/utils/MqttTopicUtilsTest.kt:49 | `device/sensor001/data` yields the id `sensor001`. |
| `MqttUtils.NoDeviceIds` | mqtt/src/test/java/life/munay/mqtt/utils/MqttTopicUtilsTest.kt:50-51 | `invalid/topic` and `home/temperature` yield no id. |
| `MqttModels.ConfigDefaults` | mqtt/src/test/java/life/munay/mqtt/repositories/MqttRepositoryImplTest.kt:56-72 | A configuration built with only URL, client id and credentials has keep-alive 60, timeout 30, clean session and automatic reconnect. |
| `MqttRepository.QosFromCode` | mqtt/src/main/java/life/munay/mqtt/repositories/MqttRepositoryImpl.kt:174 | `MqttQos.fromCode` yields a level exactly for the codes 0, 1 and 2, and that level has the given code. |
| `MqttRepository.SentQos` | mqtt/src/main/java/life/munay/mqtt/repositories/MqttRepositoryImpl.kt:174 | A QoS code in 0..2 is sent as that level; any other code is sent as QoS 0. |
| `MqttRepository.Added` | mqtt/src/main/java/life/munay/mqtt/repositories/MqttRepositoryImpl.kt:183 | Adding a topic gives exactly the old topics plus it, keeps the existing order, and never creates a duplicate. |
| `MqttRepository.AddedAll` | mqtt/src/main/java/life/munay/mqtt/repositories/MqttRepositoryImpl.kt:197-205 | Adding several topics in turn keeps the old topics as a prefix and never creates a duplicate. |
| `MqttRepository.AddedAllMembers` | mqtt/src/main/java/life/munay/mqtt/repositories/MqttRepositoryImpl.kt:197-205 | After adding several topics, the topics held are exactly the old ones and the added ones. |
| `MqttRepository.AddedAllFresh` | mqtt/src/main/java/life/munay/mqtt/repositories/MqttRepositoryImpl.kt:197-205 | Distinct topics not yet subscribed are appended in the order given. |
| `MqttRepository.Removed` | mqtt/src/main/java/life/munay/mqtt/repositories/MqttRepositoryImpl.kt:228 | Removing a topic gives exactly the old topics minus it, never creates a duplicate, and changes nothing when the topic is absent. |
| `MqttRepository.RemovedAll` | mqtt/src/main/java/life/munay/mqtt/repositories/MqttRepositoryImpl.kt:242-250 | Removing several topics in turn never creates a duplicate. |
| `MqttRepository.Kept` | mqtt/src/main/java/life/munay/mqtt/repositories/MqttRepositoryImpl.kt:228 | The reference for the list after removals: the topics outside the removed ones, exactly, in their original order. |
| `MqttRepository.RemovedAllKeepsOrder` | mqtt/src/main/java/life/munay/mqtt/repositories/MqttRepositoryImpl.kt:242-250 | Removing several topics in turn gives exactly that reference list, so the remaining topics keep their order. |
| `MqttRepository.ExtractHostFromUrl` | mqtt/src/main/java/life/munay/mqtt/repositories/MqttRepositoryImpl.kt:315-336 | The host is the colon-free text before the first `:` of the URL, after the recognised scheme prefix is removed. |
| `MqttRepository.ExtractPortFromUrl` | mqtt/src/main/java/life/munay/mqtt/repositories/MqttRepositoryImpl.kt:338-358 | The port is always an `Int`. Without a `:` it is the scheme's default. With one, it is the text after the first `:` read as an `Int`, or the scheme's default when that text is not a number. |
| `MqttRepository.SchemedUrlParts` | mqtt/src/main/java/life/munay/mqtt/repositories/MqttRepositoryImpl.kt:315-358 | For `tcp://`, `ssl://`, `ws://` and `wss://`, the host is the text up to the colon. The port is the text after it, read as an `Int`, or the scheme's default. |
| `MqttRepository.UnschemedUrlParts` | mqtt/src/main/java/life/munay/mqtt/repositories/MqttRepositoryImpl.kt:334-356 | A bare `host:port` with a colon-free host and a numeric port is read as that host and that port. |
| `MqttRepository.SchemedUrlRoundTrip` | mqtt/src/main/java/life/munay/mqtt/repositories/MqttRepositoryImpl.kt:315-358 | A URL built from a recognised scheme, a host and a printed port parses back to that host and port. |
| `MqttRepository.SchemedUrlWithoutPort` | mqtt/src/main/java/life/munay/mqtt/repositories/MqttRepositoryImpl.kt:340-355 | Without a port, the port is 1883, 8883, 80 or 443 by scheme. |
| `MqttRepository.MqttSchemeUrlMisread` | mqtt/src/main/java/life/munay/mqtt/repositories/MqttRepositoryImpl.kt:334-356 | An `mqtt://` URL is not stripped: the host read is `mqtt` and the port is 1883. |
| `MqttRepository.AuthFor` | mqtt/src/main/java/life/munay/mqtt/repositories/MqttRepositoryImpl.kt:71-78 | Simple authentication is attached exactly when a username is set. A password without a username is dropped. |
| `MqttRepository.Connect` | mqtt/src/main/java/life/munay/mqtt/repositories/MqttRepositoryImpl.kt:55-129 | Once CONNECTED, connect is a no-op success. Otherwise it stores the configuration and a client handle and sends one connect request. Success gives CONNECTED; failure gives ERROR with the handle kept. The invariant is preserved. |
| `MqttRepository.Disconnect` | mqtt/src/main/java/life/munay/mqtt/repositories/MqttRepositoryImpl.kt:131-163 | Without a handle, or on a clean completion, the result is the fresh repository and success. A failed completion gives ERROR with topics, handle and configuration kept. |
| `MqttRepository.Subscribe` | mqtt/src/main/java/life/munay/mqtt/repositories/MqttRepositoryImpl.kt:165-195 | Without a handle it fails fast with "Not connected", with no call. On success exactly the topic is added; on failure nothing changes. |
| `MqttRepository.Unsubscribe` | mqtt/src/main/java/life/munay/mqtt/repositories/MqttRepositoryImpl.kt:211-240 | Without a handle it fails fast. On success exactly the topic is removed; on failure nothing changes. |
| `MqttRepository.Publish` | mqtt/src/main/java/life/munay/mqtt/repositories/MqttRepositoryImpl.kt:256-292 | Publish never changes the repository. It fails fast without a handle, and otherwise sends one request with the fallback QoS. |
| `MqttRepository.PublishMessage` | mqtt/src/main/java/life/munay/mqtt/repositories/MqttRepositoryImpl.kt:294-301 | Publishing a message sends its own topic, payload, QoS and retain flag. It fails with "Not connected" without a handle, succeeds exactly when the client completes normally, and otherwise carries the client's message. |
| `MqttRepository.SubscribeAll` | mqtt/src/main/java/life/munay/mqtt/repositories/MqttRepositoryImpl.kt:197-209 | Topics are subscribed in order until the first failure, which is returned. The topics held are then exactly the old ones with the subscribed prefix added in turn. Later topics are never sent, and an empty list succeeds. |
| `MqttRepository.UnsubscribeAll` | mqtt/src/main/java/life/munay/mqtt/repositories/MqttRepositoryImpl.kt:242-254 | Topics are unsubscribed in order until the first failure, which is returned. The topics held are then exactly the old ones with the unsubscribed prefix removed in turn, the others in their original order. |
| `MqttRepository.FreshRepository` | mqtt/src/test/java/life/munay/mqtt/repositories/MqttRepositoryImplTest.kt:27-39 | A new repository is DISCONNECTED, not connected and without subscriptions, and it satisfies the invariant. |
| `MqttRepository.NoClientFailsFast` | mqtt/src/test/java/life/munay/mqtt/repositories/MqttRepositoryImplTest.kt:41-53 | Without a handle, publish, subscribe and unsubscribe fail with "Not connected", change nothing and make no call. |
| `MqttRepository.ConnectedHasClient` | mqtt/src/main/java/life/munay/mqtt/repositories/MqttRepositoryImpl.kt:307-309 | Between operations, `isConnected()` implies a client handle and a configuration. |
| `MqttRepository.CurrentConnectionState` | mqtt/src/main/java/life/munay/mqtt/repositories/MqttRepositoryImpl.kt:303-305 | Definition: the stored connection state. |
| `MqttRepository.RepositoryDefaults` | mqtt/src/main/java/life/munay/mqtt/repositories/MqttRepository.kt:33-57 | With a client, `subscribe(topic)` asks for QoS 1, and `publish(topic, message)` sends at QoS 1 without retain. |
| `MqttRepository.FailedConnectKeepsHandle` | mqtt/src/main/java/life/munay/mqtt/repositories/MqttRepositoryImpl.kt:80-127 | After a failed connect the state is ERROR, but a later subscribe still reaches the client. |
| `MqttRepository.ConnectIdempotent` | mqtt/src/main/java/life/munay/mqtt/repositories/MqttRepositoryImpl.kt:57-59 | A second connect after a successful one changes nothing and makes no call. |
| `MqttRepository.SubscribeUnsubscribeRoundTrip` | mqtt/src/main/java/life/munay/mqtt/repositories/MqttRepositoryImpl.kt:165-240 | Subscribing to a new topic and then unsubscribing from it restores the repository exactly. |
| `MqttUseCase.MqttResult.OnSuccess` | mqtt/src/main/java/life/munay/mqtt/usecases/MqttUseCase.kt:291-294 | `onSuccess` returns the result itself, and an error runs no action. |
| `MqttUseCase.MqttResult.OnError` | mqtt/src/main/java/life/munay/mqtt/usecases/MqttUseCase.kt:296-299 | `onError` returns the result itself, and a success runs no action. |
| `MqttUseCase.ResultProjections` | mqtt/src/main/java/life/munay/mqtt/usecases/MqttUseCase.kt:287-306 | Exactly one of `isSuccess()` and `isError()` holds. `getOrNull` and `getErrorOrNull` project the payload or message, and together rebuild the result. |
| `MqttUseCase.CallbackChain` | mqtt/src/main/java/life/munay/mqtt/usecases/MqttUseCase.kt:291-299 | `onSuccess(f).onError(g)` runs exactly one of the actions and returns the original result. |
| `MqttUseCase.BrokerUrlRule` | mqtt/src/main/java/life/munay/mqtt/usecases/MqttUseCase.kt:262-272 | `tcp://`, `ssl://` or `mqtt://` plus a colon-free host, `:` and a port text is accepted exactly when the port text reads as an `Int` and the URL is over 10 units long. |
| `MqttUseCase.ValidBrokerUrlParts` | mqtt/src/main/java/life/munay/mqtt/usecases/MqttUseCase.kt:262-272 | Every accepted URL has that shape: an accepted prefix, a colon-free host, `:`, and an `Int` port text. |
| `MqttUseCase.ValidUrlAddress` | mqtt/src/main/java/life/munay/mqtt/usecases/MqttUseCase.kt:262-272 | For an accepted `tcp://` or `ssl://` URL, the repository's parsers return exactly the host and port written in it. |
| `MqttUseCase.ValidMqttUrlMisread` | mqtt/src/main/java/life/munay/mqtt/repositories/MqttRepositoryImpl.kt:315-358 | For an accepted `mqtt://` URL, the repository connects to host `mqtt` on port 1883, whatever the URL names. |
| `MqttUseCase.ConnectToBroker` | mqtt/src/main/java/life/munay/mqtt/usecases/MqttUseCase.kt:41-79 | A refused URL returns its error without touching the repository. Otherwise it is the repository's connect. An already CONNECTED repository is left as it is, with no call. Any other repository sends one connect request with the given or generated id, the credentials and 60/30/true/true. It stores that configuration and a handle, then ends CONNECTED on a clean completion and ERROR otherwise. A repository failure becomes "Connection failed: <reason>". |
| `MqttUseCase.ConnectToBrokerWithConfig` | mqtt/src/main/java/life/munay/mqtt/usecases/MqttUseCase.kt:84-90 | A refused URL fails with "Invalid broker URL" and no call. Otherwise the result is exactly the repository's `connect(config)`: unless already CONNECTED it stores the configuration and a handle, sends one connect request, ends CONNECTED or ERROR, and a failure carries the client's message. |
| `MqttUseCase.DisconnectFromBroker` | mqtt/src/main/java/life/munay/mqtt/usecases/MqttUseCase.kt:95-110 | Success resets the repository. Failure reports "Disconnect failed: <reason>" and keeps topics and handle. |
| `MqttUseCase.SubscribeToTopic` | mqtt/src/main/java/life/munay/mqtt/usecases/MqttUseCase.kt:115-138 | An invalid filter, then an already-subscribed topic, are refused before any call. Success appends the topic; otherwise the repository is unchanged. A repository failure reads "Subscription failed: <reason>", with "Not connected to MQTT broker" as the reason without a client. |
| `MqttUseCase.InvalidTopics` | mqtt/src/main/java/life/munay/mqtt/usecases/MqttUseCase.kt:144 | Collects exactly the topics of the list that are not valid filters. |
| `MqttUseCase.SubscribeToTopics` | mqtt/src/main/java/life/munay/mqtt/usecases/MqttUseCase.kt:143-150 | Any invalid filter fails the whole call, listing the invalid ones, with no call. Otherwise the list goes to the repository: topics are subscribed in order until the first failure, which is returned, the topics held are exactly the old ones with the subscribed prefix added, and without a client nothing is sent. |
| `MqttUseCase.PublishRejection` | mqtt/src/main/java/life/munay/mqtt/usecases/MqttUseCase.kt:169-179 | The argument checks in order: topic, then blank message, then QoS range, each with its own message. |
| `MqttUseCase.PublishMessage` | mqtt/src/main/java/life/munay/mqtt/usecases/MqttUseCase.kt:162-198 | A failed argument check or a state other than CONNECTED returns its error with no call. Otherwise one request goes out with the QoS as given. The repository never changes. |
| `MqttUseCase.ConnectedPublishReachesClient` | mqtt/src/main/java/life/munay/mqtt/usecases/MqttUseCase.kt:181-185 | Between operations, an admissible publish while CONNECTED always reaches the client. |
| `MqttUseCase.PublishDeviceStatus` | mqtt/src/main/java/life/munay/mqtt/usecases/MqttUseCase.kt:203-210 | Status goes to `device/<id>/status` at QoS 1 with the given retain flag, exactly when the topic and status pass the checks and the repository is connected. It succeeds exactly when that request completes normally; a failed request reads "Publish failed: <reason>". |
| `MqttUseCase.PublishDeviceData` | mqtt/src/main/java/life/munay/mqtt/usecases/MqttUseCase.kt:215-222 | Data goes to `device/<id>/data`, not retained, at the given QoS, exactly when the topic, data and QoS pass the checks and the repository is connected. It succeeds exactly when that request completes normally; a failed request reads "Publish failed: <reason>". |
| `MqttUseCase.DeviceStatusFilter` | mqtt/src/main/java/life/munay/mqtt/usecases/MqttUseCase.kt:227-234 | Without an id the filter is `device/+/status`, which is valid. With an id it is the built device topic. |
| `MqttUseCase.DeviceDataFilter` | mqtt/src/main/java/life/munay/mqtt/usecases/MqttUseCase.kt:239-246 | Without an id the filter is `device/+/data`, which is valid. With an id it is the built device topic. |
| `MqttUseCase.SubscribeToDeviceStatus` | mqtt/src/main/java/life/munay/mqtt/usecases/MqttUseCase.kt:227-234 | Without an id, a repository holding a client and not yet subscribed to `device/+/status` receives a QoS 1 subscription to it. With or without an id, success appends the filter to the topics. |
| `MqttUseCase.SubscribeToDeviceData` | mqtt/src/main/java/life/munay/mqtt/usecases/MqttUseCase.kt:239-246 | Without an id, a repository holding a client and not yet subscribed to `device/+/data` receives a QoS 1 subscription to it. With or without an id, success appends the filter to the topics. |
| `MqttUseCase.SubscribeToTopicAtLeastOnceByDefault` | mqtt/src/main/java/life/munay/mqtt/usecases/MqttUseCase.kt:115 | `subscribeToTopic(topic)` asks the client for QoS 1. |
| `MqttUseCase.PublishMessageDefaults` | mqtt/src/main/java/life/munay/mqtt/usecases/MqttUseCase.kt:162-167 | `publishMessage(topic, message)` sends at QoS 1 without retain. |
| `MqttUseCase.DeviceStatusRetainedByDefault` | mqtt/src/main/java/life/munay/mqtt/usecases/MqttUseCase.kt:203-210 | `publishDeviceStatus(deviceId, status)` sends the status to `device/<id>/status` at QoS 1, retained. |
| `MqttUseCase.DeviceDataAtLeastOnceByDefault` | mqtt/src/main/java/life/munay/mqtt/usecases/MqttUseCase.kt:215-222 | `publishDeviceData(deviceId, data)` sends at QoS 1, not retained, exactly when the topic and the data pass the checks and the repository is connected. |
| `MqttUseCase.DeviceSubscriptionsCoverEveryDeviceByDefault` | mqtt/src/main/java/life/munay/mqtt/usecases/MqttUseCase.kt:227-246 | Without a device id, the device subscriptions are subscriptions to `device/+/status` and `device/+/data`, and success appends that filter. |
| `MqttViewModel.Connect` | mqtt/src/main/java/life/munay/mqtt/viewmodels/MqttViewModel.kt:56-95 | A refused URL only sets the error. Otherwise an already CONNECTED repository is left as it is, with no call. Any other repository sends one connect request with no credentials and 60/30/true/true, and ends CONNECTED on a clean completion and ERROR otherwise. A failure sets "Connection failed: <reason>". `isConnecting` is false at the end. |
| `MqttViewModel.Disconnect` | mqtt/src/main/java/life/munay/mqtt/viewmodels/MqttViewModel.kt:97-115 | Success empties the topic list. Failure keeps it and sets "Disconnection failed: <reason>". |
| `MqttViewModel.Subscribe` | mqtt/src/main/java/life/munay/mqtt/viewmodels/MqttViewModel.kt:117-147 | An invalid filter, or a topic already in the local list, only sets the error. Otherwise it subscribes at QoS 1, and success copies the repository's list. A failure sets "Subscription failed: <reason>", with "Unknown subscription error" for a null message and "Not connected to MQTT broker" without a client. |
| `MqttViewModel.Unsubscribe` | mqtt/src/main/java/life/munay/mqtt/viewmodels/MqttViewModel.kt:149-167 | One unsubscribe request goes out exactly when there is a client. Success copies the repository's list. Failure keeps the list and sets "Unsubscription failed: <reason>": the client's message, or "Not connected to MQTT broker" without a client. |
| `MqttViewModel.PublishRejection` | mqtt/src/main/java/life/munay/mqtt/viewmodels/MqttViewModel.kt:173-186 | The view model's argument checks in order, with its own wording for an invalid topic. |
| `MqttViewModel.Publish` | mqtt/src/main/java/life/munay/mqtt/viewmodels/MqttViewModel.kt:169-216 | A rejected argument only sets the error. A successful publish appends exactly one message, marked sent by this client; a failed one leaves the messages alone and sets "Publish failed: <reason>". `isPublishing` is false at the end. |
| `MqttViewModel.PublishDefaults` | mqtt/src/main/java/life/munay/mqtt/viewmodels/MqttViewModel.kt:169 | The screen's `publish(topic, message)` sends at QoS 1 without retain, and a success records the message with QoS 1, not retained, sent by this client. |
| `MqttViewModel.OnIncoming` | mqtt/src/main/java/life/munay/mqtt/viewmodels/MqttViewModel.kt:46-53 | An incoming message is appended at the end, and nothing else changes. |
| `MqttViewModel.Deliver` | mqtt/src/main/java/life/munay/mqtt/viewmodels/MqttViewModel.kt:46-53 | Definition: the messages delivered one after another through `OnIncoming`. |
| `MqttViewModel.DeliverAppends` | mqtt/src/main/java/life/munay/mqtt/viewmodels/MqttViewModel.kt:46-53 | A run of incoming messages ends up at the end of the list in arrival order. |
| `MqttViewModel.ClearMessages` | mqtt/src/main/java/life/munay/mqtt/viewmodels/MqttViewModel.kt:218-220 | The message list becomes empty, and nothing else changes. |
| `MqttViewModel.ClearError` | mqtt/src/main/java/life/munay/mqtt/viewmodels/MqttViewModel.kt:222-224 | The error becomes null, and nothing else changes. |
| `MqttViewModel.SubscribeKeepsSync` | mqtt/src/main/java/life/munay/mqtt/viewmodels/MqttViewModel.kt:127-135 | While the view model is the repository's only user, subscribe keeps the local list equal to the repository's. |
| `MqttViewModel.UnsubscribeKeepsSync` | mqtt/src/main/java/life/munay/mqtt/viewmodels/MqttViewModel.kt:153-155 | Unsubscribe keeps the local list equal to the repository's. |
| `MqttViewModel.DisconnectKeepsSync` | mqtt/src/main/java/life/munay/mqtt/viewmodels/MqttViewModel.kt:101-103 | Disconnect keeps the local list equal to the repository's. |
| `MqttViewModel.ConnectKeepsSync` | mqtt/src/main/java/life/munay/mqtt/viewmodels/MqttViewModel.kt:56-95 | Connect keeps the local list equal to the repository's. |
| `MqttViewModel.PublishKeepsSync` | mqtt/src/main/java/life/munay/mqtt/viewmodels/MqttViewModel.kt:169-216 | Publish keeps the local list equal to the repository's. |
| `MqttViewModel.NoDuplicateSubscription` | mqtt/src/main/java/life/munay/mqtt/viewmodels/MqttViewModel.kt:127-130 | While the lists agree, subscribing to an already-subscribed topic never reaches the client. |

## Left out

- **Cancellation.** The cancellation handler at MqttRepositoryImpl.kt:116-120 is left out. So is the rethrow of `CancellationException`: a coroutine is never cancelled in the model.
- **Concurrency.** Every handler runs as one atomic step. The intermediate `isConnecting = true` and `isPublishing = true` values are not observable in the model.
- **`reconnect`.** MqttRepositoryImpl.kt:360-373 is never called from anywhere in the app, so it is left out. No state is ever CONNECTING or RECONNECTING between operations.
- **The client library.** HiveMQ's client and futures are represented only by the requests sent and the outcome each reports. Exceptions the client builder might throw are not modelled, e.g. for a port outside 0..65535.
- **The incoming publish callback and its buffer.** The callback (MqttRepositoryImpl.kt:83-93) and the 64-message `SharedFlow` buffer are outside the model. Incoming messages enter through `MqttViewModel.OnIncoming`.
- **Payload encoding.** UTF-8 encoding of payloads is not modelled.
- **Clock and random values.** The message timestamp and the clock- and random-based client ids are not modelled. The ids are parameters (`generatedId`, `clientId`).
- **Logging.** Timber logging has no effect on state and is left out.
- **The use case's and the view model's own catch blocks.** The repository's operations catch every `Exception` themselves (MqttRepositoryImpl.kt:124, 159, 191, 236, 288), builder exceptions included, and hand it back as a failed `Result`. So the catch blocks at MqttUseCase.kt:75, 106, 134, 194 and MqttViewModel.kt:88, 110, 142, 162, 209, with their "… error: …" messages, are reached only by coroutine cancellation, which the model leaves out. The catch at MqttUseCase.kt:269 guards `split` and `toIntOrNull`, which do not throw.
- **Views without logic.** `getMqttState` (MqttUseCase.kt:25-36) combines flows for the screen and is left out. `unsubscribeFromTopic`, `isConnected` and `getSubscribedTopics` (MqttUseCase.kt:155-157, 251, 256) are pure delegations to `MqttRepository.Unsubscribe`, `MqttRepository.IsConnected` and `MqttRepository.SubscribedTopics`.
- **`onCleared`.** MqttViewModel.kt:238-250 disconnects when the view model is destroyed. It is lifecycle code and is left out.
- **Unused configuration fields.** `connectionTimeout` and `automaticReconnect` are stored but never handed to the client, so they appear only in `Config`.
- KotlinText.ToIntOrNull: accepts only ASCII digits. The JVM also accepts digits of other Unicode scripts, so this is weaker than the real function for such input.
- KotlinText.IsWhitespace: lists a fixed set of JVM whitespace characters (controls U+0009..U+000D and U+001C..U+001F and the Unicode space separators). It does not follow later Unicode additions.
- MqttUseCase.SubscribeToDeviceStatus: with a device id, the calls and the failure messages are those of `SubscribeToTopic` on the built topic and are not restated.
- MqttUseCase.SubscribeToDeviceData: as for `SubscribeToDeviceStatus`.
- MqttUseCase.PublishDeviceStatus: when no request goes out (an id holding a wildcard, a blank status, no connection), the refusal message is `PublishMessage`'s and is not restated; it is an error in every such case.
- MqttUseCase.PublishDeviceData: as for `PublishDeviceStatus`.

=== FILE: kotlin_text.dfy ===
/**
 * The Kotlin standard-library string operations the MQTT layer relies on,
 * each defined the way Kotlin/JVM evaluates it. A `string` element stands for
 * one Unicode scalar value; `Utf16Length` gives the length Kotlin reports.
 */
module KotlinText {
  import opened Nullable

  /** Range of Kotlin's 32-bit `Int`. */
  const MinInt: int := -0x8000_0000
  const MaxInt: int := 0x7FFF_FFFF

  // ---------------------------------------------------------------------------
  // Length and blankness
  // ---------------------------------------------------------------------------

  /** `String.length`: the number of UTF-16 code units; a character above U+FFFF takes two. */
  function Utf16Length(s: string): (n: nat)
    ensures |s| <= n <= 2 * |s|
  {
    if s == [] then 0 else (if s[0] as int > 0xFFFF then 2 else 1) + Utf16Length(s[1..])
  }

  lemma {:induction false} Utf16LengthAppend(a: string, b: string)
    ensures Utf16Length(a + b) == Utf16Length(a) + Utf16Length(b)
    decreases |a|
  {
    if a == [] {
      assert a + b == b;
    } else {
      assert (a + b)[0] == a[0];
      assert (a + b)[1..] == a[1..] + b;
      Utf16LengthAppend(a[1..], b);
    }
  }

  /** A string of basic-plane characters has as many UTF-16 units as characters. */
  lemma {:induction false} Utf16LengthBasic(s: string)
    requires forall i | 0 <= i < |s| :: s[i] as int <= 0xFFFF
    ensures Utf16Length(s) == |s|
    decreases |s|
  {
    if s != [] {
      Utf16LengthBasic(s[1..]);
    }
  }

  /**
   * `Char.isWhitespace()` on the JVM: `Character.isWhitespace(c) || Character.isSpaceChar(c)`,
   * that is the controls U+0009..U+000D and U+001C..U+001F plus every space, line and
   * paragraph separator (including the no-break spaces).
   */
  predicate IsWhitespace(c: char) {
    || ('\t' <= c <= '\r')
    || ('\U{1C}' <= c <= ' ')
    || c == '\U{A0}'
    || c == '\U{1680}'
    || ('\U{2000}' <= c <= '\U{200A}')
    || c == '\U{2028}'
    || c == '\U{2029}'
    || c == '\U{202F}'
    || c == '\U{205F}'
    || c == '\U{3000}'
  }

  /** `CharSequence.isBlank()`: empty or whitespace only. */
  predicate IsBlank(s: string) {
    forall i | 0 <= i < |s| :: IsWhitespace(s[i])
  }

  // ---------------------------------------------------------------------------
  // Searching
  // ---------------------------------------------------------------------------

  /** `String.startsWith(prefix)`. */
  predicate StartsWith(s: string, prefix: string) {
    prefix <= s
  }

  /** `String.removePrefix(prefix)`. */
  function RemovePrefix(s: string, prefix: string): (r: string)
    ensures StartsWith(s, prefix) ==> prefix + r == s
    ensures !StartsWith(s, prefix) ==> r == s
  {
    if StartsWith(s, prefix) then s[|prefix|..] else s
  }

  /** `sub` occurs in `s` starting at index `i`. */
  ghost predicate OccursAt(s: string, sub: string, i: int) {
    0 <= i && i + |sub| <= |s| && s[i..i + |sub|] == sub
  }

  /** The scan behind `indexOf`, starting at `from`. */
  function IndexOfFrom(s: string, sub: string, from: nat): (r: int)
    ensures r == -1 ==> forall i | from <= i :: !OccursAt(s, sub, i)
    ensures r != -1 ==> from <= r && OccursAt(s, sub, r)
    ensures r != -1 ==> forall i | from <= i < r :: !OccursAt(s, sub, i)
    decreases |s| - from
  {
    if from + |sub| > |s| then -1
    else if s[from..from + |sub|] == sub then from
    else IndexOfFrom(s, sub, from + 1)
  }

  /** `String.indexOf(sub)`: the first occurrence, or -1. */
  function IndexOf(s: string, sub: string): (r: int)
    ensures r == -1 ==> forall i :: !OccursAt(s, sub, i)
    ensures r != -1 ==> OccursAt(s, sub, r) && forall i | 0 <= i < r :: !OccursAt(s, sub, i)
  {
    IndexOfFrom(s, sub, 0)
  }

  /** `CharSequence.contains(sub)`, which Kotlin defines as `indexOf(sub) >= 0`. */
  predicate Contains(s: string, sub: string) {
    IndexOf(s, sub) >= 0
  }

  lemma OccursAtChar(s: string, c: char, i: int)
    ensures OccursAt(s, [c], i) <==> 0 <= i < |s| && s[i] == c
  {
    if 0 <= i < |s| && s[i] == c {
      assert s[i..i + 1] == [c];
    }
  }

  /** For a one-character needle, `indexOf` finds the first position holding that character. */
  lemma IndexOfChar(s: string, c: char)
    ensures IndexOf(s, [c]) == -1 <==> c !in s
    ensures IndexOf(s, [c]) != -1 ==>
      var i := IndexOf(s, [c]); 0 <= i < |s| && s[i] == c && c !in s[..i]
  {
    var i := IndexOf(s, [c]);
    if i == -1 {
      forall j | 0 <= j < |s| ensures s[j] != c {
        OccursAtChar(s, c, j);
      }
    } else {
      OccursAtChar(s, c, i);
      forall j | 0 <= j < i ensures s[j] != c {
        OccursAtChar(s, c, j);
      }
    }
  }

  /** `contains` with a one-character needle is plain membership. */
  lemma ContainsChar(s: string, c: char)
    ensures Contains(s, [c]) <==> c in s
  {
    IndexOfChar(s, c);
  }

  /** `String.substringBefore(delimiter, missingDelimiterValue)`. */
  function SubstringBefore(s: string, delimiter: string, missing: string): (r: string)
    ensures IndexOf(s, delimiter) == -1 ==> r == missing
    ensures IndexOf(s, delimiter) != -1 ==> r <= s && OccursAt(s, delimiter, |r|)
    ensures IndexOf(s, delimiter) != -1 ==> |r| == IndexOf(s, delimiter)
  {
    var i := IndexOf(s, delimiter);
    if i == -1 then missing else s[..i]
  }

  /** `String.substringAfter(delimiter, missingDelimiterValue)`. */
  function SubstringAfter(s: string, delimiter: string, missing: string): (r: string)
    ensures IndexOf(s, delimiter) == -1 ==> r == missing
    ensures IndexOf(s, delimiter) != -1 ==>
      SubstringBefore(s, delimiter, missing) + delimiter + r == s
  {
    var i := IndexOf(s, delimiter);
    if i == -1 then missing else s[i + |delimiter|..]
  }

  /** Cutting at the first occurrence of a character: the part before it does not hold it. */
  lemma SplitAtFirstChar(s: string, c: char, missing: string)
    requires c in s
    ensures s == SubstringBefore(s, [c], missing) + [c] + SubstringAfter(s, [c], missing)
    ensures c !in SubstringBefore(s, [c], missing)
  {
    IndexOfChar(s, c);
  }

  // ---------------------------------------------------------------------------
  // split(delimiter) and its inverse
  // ---------------------------------------------------------------------------

  /** `joinToString(delimiter)` over at least one field: the inverse of `Split`. */
  function Join(fields: seq<string>, d: char): string
    requires |fields| >= 1
    decreases |fields|
  {
    if |fields| == 1 then fields[0] else fields[0] + [d] + Join(fields[1..], d)
  }

  /**
   * `String.split(delimiter)` with a one-character delimiter and no limit: every field
   * is kept, empty ones included, so the result is never empty.
   */
  function Split(s: string, d: char): (fields: seq<string>)
    ensures |fields| >= 1
    ensures forall k | 0 <= k < |fields| :: d !in fields[k]
    ensures Join(fields, d) == s
    decreases |s|
  {
    var i := IndexOf(s, [d]);
    IndexOfChar(s, d);
    if i == -1 then [s]
    else
      var rest := Split(s[i + 1..], d);
      JoinCons(s[..i], rest, d);
      assert s == s[..i] + [d] + s[i + 1..];
      [s[..i]] + rest
  }

  lemma JoinCons(first: string, rest: seq<string>, d: char)
    requires |rest| >= 1
    ensures Join([first] + rest, d) == first + [d] + Join(rest, d)
  {
    assert ([first] + rest)[1..] == rest;
  }

  /** Text without the delimiter is a single field. */
  lemma SplitWithoutDelimiter(s: string, d: char)
    requires d !in s
    ensures Split(s, d) == [s]
  {
    IndexOfChar(s, d);
  }

  /** Splitting what `Join` built gives back the fields. */
  lemma {:induction false} SplitJoin(fields: seq<string>, d: char)
    requires |fields| >= 1
    requires forall k | 0 <= k < |fields| :: d !in fields[k]
    ensures Split(Join(fields, d), d) == fields
    decreases |fields|
  {
    var s := Join(fields, d);
    IndexOfChar(s, d);
    if |fields| == 1 {
      assert d !in s;
    } else {
      var tail := Join(fields[1..], d);
      assert s == fields[0] + [d] + tail;
      assert s[|fields[0]|] == d;
      assert s[..|fields[0]|] == fields[0];
      assert IndexOf(s, [d]) == |fields[0]|;
      assert s[|fields[0]| + 1..] == tail;
      SplitJoin(fields[1..], d);
    }
  }

  lemma {:induction false} JoinAppend(a: seq<string>, b: seq<string>, d: char)
    requires |a| >= 1 && |b| >= 1
    ensures Join(a + b, d) == Join(a, d) + [d] + Join(b, d)
    decreases |a|
  {
    if |a| == 1 {
      assert (a + b)[1..] == b;
    } else {
      assert (a + b)[1..] == a[1..] + b;
      JoinAppend(a[1..], b, d);
    }
  }

  /** Gluing two texts with the delimiter concatenates their field lists. */
  lemma SplitAppend(a: string, b: string, d: char)
    ensures Split(a + [d] + b, d) == Split(a, d) + Split(b, d)
  {
    var fa, fb := Split(a, d), Split(b, d);
    JoinAppend(fa, fb, d);
    SplitJoin(fa + fb, d);
  }

  /** A delimiter-free head glued to two more texts: the head, then their field lists in order. */
  lemma SplitAppend3(a: string, b: string, c: string, d: char)
    requires d !in a
    ensures Split(a + [d] + b + [d] + c, d) == [a] + Split(b, d) + Split(c, d)
  {
    var bc := b + [d] + c;
    assert a + [d] + b + [d] + c == a + [d] + bc;
    var fa, fbc, fb, fc := Split(a, d), Split(bc, d), Split(b, d), Split(c, d);
    SplitAppend(a, bc, d);
    SplitAppend(b, c, d);
    SplitWithoutDelimiter(a, d);
    assert fa + fbc == [a] + (fb + fc);
  }

  // ---------------------------------------------------------------------------
  // Decimal integers: toIntOrNull and toString
  // ---------------------------------------------------------------------------

  /** The ASCII decimal digits. */
  predicate IsDigit(c: char) {
    '0' <= c <= '9'
  }

  predicate AllDigits(s: string) {
    forall i | 0 <= i < |s| :: IsDigit(s[i])
  }

  /** The value of a run of decimal digits, most significant first (leading zeros allowed). */
  function DigitsValue(s: string): nat
    requires AllDigits(s)
    decreases |s|
  {
    if s == [] then 0 else DigitsValue(s[..|s| - 1]) * 10 + (s[|s| - 1] as int - '0' as int)
  }

  /**
   * `String.toIntOrNull()`: an optional leading `+` or `-`, then at least one digit,
   * and the value must fit in a 32-bit `Int`; anything else gives `null`.
   */
  function ToIntOrNull(s: string): (r: Option<int>)
    ensures r.Some? ==> MinInt <= r.value <= MaxInt
    ensures r.Some? ==> |s| >= 1 && (IsDigit(s[0]) || s[0] == '+' || s[0] == '-')
    ensures r.Some? ==> AllDigits(s[1..]) && exists i | 0 <= i < |s| :: IsDigit(s[i])
  {
    if |s| == 0 then None
    else
      var negative := s[0] == '-';
      var digits := if s[0] == '-' || s[0] == '+' then s[1..] else s;
      if |digits| == 0 || !AllDigits(digits) then None
      else
        var magnitude: int := DigitsValue(digits);
        var v := if negative then -magnitude else magnitude;
        if MinInt <= v <= MaxInt then
          assert IsDigit(digits[0]) && digits[0] == s[|s| - |digits|];
          Some(v)
        else None
  }

  /**
   * The converse of `ToIntOrNull`'s contract: an optional sign and at least one digit
   * (leading zeros, `+` and `-0` included) read as their value, or as `null` outside `Int`.
   */
  lemma ToIntOrNullOfDigits(sign: string, ds: string)
    requires sign == "" || sign == "+" || sign == "-"
    requires |ds| >= 1 && AllDigits(ds)
    ensures var n: int := DigitsValue(ds); var v := if sign == "-" then -n else n;
      ToIntOrNull(sign + ds) == (if MinInt <= v <= MaxInt then Some(v) else None)
  {
    var s := sign + ds;
    if sign == "" {
      assert s == ds;
      assert IsDigit(s[0]);
    } else {
      assert s[0] == sign[0] && s[1..] == ds;
    }
  }

  function DigitChar(d: nat): (c: char)
    requires d < 10
    ensures IsDigit(c) && c as int - '0' as int == d
  {
    (d + '0' as int) as char
  }

  /** `Int.toString()` for a non-negative value. */
  function NatToDecimal(n: nat): (s: string)
    ensures |s| >= 1 && AllDigits(s)
    decreases n
  {
    if n < 10 then [DigitChar(n)] else NatToDecimal(n / 10) + [DigitChar(n % 10)]
  }

  /** `Int.toString()`. */
  function IntToDecimal(n: int): string {
    if n < 0 then "-" + NatToDecimal(-n) else NatToDecimal(n)
  }

  lemma {:induction false} DigitsValueOfDecimal(n: nat)
    ensures DigitsValue(NatToDecimal(n)) == n
    decreases n
  {
    var s := NatToDecimal(n);
    if n >= 10 {
      DigitsValueOfDecimal(n / 10);
      assert s[..|s| - 1] == NatToDecimal(n / 10);
    }
  }

  /** `toIntOrNull` reads back every `Int` that `toString` prints. */
  lemma DecimalRoundTrip(n: int)
    requires MinInt <= n <= MaxInt
    ensures ToIntOrNull(IntToDecimal(n)) == Some(n)
  {
    var s := IntToDecimal(n);
    if n < 0 {
      var digits := NatToDecimal(-n);
      DigitsValueOfDecimal(-n);
      assert s == "-" + digits;
      assert s[0] == '-' && s[1..] == digits;
    } else {
      var digits := NatToDecimal(n);
      DigitsValueOfDecimal(n);
      assert s == digits;
      assert IsDigit(s[0]);
    }
  }

  /** Text whose first character is neither a sign nor a digit never parses. */
  lemma NoNumberAfterNonDigit(s: string)
    requires |s| >= 1 && !IsDigit(s[0]) && s[0] != '+' && s[0] != '-'
    ensures ToIntOrNull(s) == None
  {
  }
}

=== FILE: mqtt_models.dfy ===
/** The value types of the MQTT layer: connection state, connection configuration, message. */
module MqttModels {
  import opened Nullable

  /** The five connection states, named as the Kotlin enum names them. */
  datatype ConnState = DISCONNECTED | CONNECTING | CONNECTED | RECONNECTING | ERROR

  /** A connection configuration; the defaults are those of the Kotlin data class. */
  datatype Config = Config(
    brokerUrl: string,
    clientId: string,
    username: Option<string> := None,
    password: Option<string> := None,
    keepAliveInterval: int := 60,
    connectionTimeout: int := 30,
    cleanSession: bool := true,
    automaticReconnect: bool := true)

  /**
   * A message as kept in the view's list. The creation timestamp is not modelled;
   * `qos` is a plain `Int`, as in `MqttMessage`.
   */
  datatype Message = Message(
    topic: string,
    payload: string,
    qos: int := 1,
    retained: bool := false,
    isSentByMe: bool := false)

  /** The configuration `MqttRepositoryImplTest` builds keeps every default it does not override. */
  lemma ConfigDefaults(brokerUrl: string, clientId: string, username: string, password: string)
    ensures var c := Config(brokerUrl, clientId, Some(username), Some(password));
      && c.keepAliveInterval == 60 && c.connectionTimeout == 30
      && c.cleanSession && c.automaticReconnect
      && c.username == Some(username) && c.password == Some(password)
  {
  }
}

=== FILE: mqtt_repository.dfy ===
/**
 * `MqttRepositoryImpl` as an immutable record and pure transitions. Every operation takes
 * the outcome the HiveMQ client would report (`TransportOutcome`) and returns the new
 * record, the `Result<Unit>` handed to the caller, and the requests sent to the client
 * (an empty list means the client was never called).
 */
module MqttRepository {
  import opened Nullable
  import opened KotlinText
  import opened MqttModels
  import MqttUtils

  // ---------------------------------------------------------------------------
  // The client library's side
  // ---------------------------------------------------------------------------

  /** HiveMQ's `MqttQos`. */
  datatype Qos = AtMostOnce | AtLeastOnce | ExactlyOnce {
    function Code(): int {
      match this
      case AtMostOnce => 0
      case AtLeastOnce => 1
      case ExactlyOnce => 2
    }
  }

  /** `MqttQos.fromCode`: `null` for a code it does not know. */
  function QosFromCode(code: int): (q: Option<Qos>)
    ensures q.Some? <==> 0 <= code <= 2
    ensures q.Some? ==> q.value.Code() == code
  {
    if code == 0 then Some(AtMostOnce)
    else if code == 1 then Some(AtLeastOnce)
    else if code == 2 then Some(ExactlyOnce)
    else None
  }

  /** The QoS subscribe and publish send: `MqttQos.fromCode(qos) ?: MqttQos.AT_MOST_ONCE`. */
  function SentQos(code: int): (q: Qos)
    ensures 0 <= code <= 2 ==> q.Code() == code
    ensures !(0 <= code <= 2) ==> q == AtMostOnce
  {
    QosFromCode(code).GetOr(AtMostOnce)
  }

  /** How a client future completes: normally, or with a throwable whose message may be null. */
  datatype TransportOutcome = Ok | Err(message: Option<string>)

  /** Kotlin's `Result<Unit>`; a failure keeps the exception's (nullable) message. */
  datatype Outcome = Success | Failure(message: Option<string>)

  datatype SimpleAuth = SimpleAuth(username: string, password: Option<string>)

  /** What the repository asks of the client. */
  datatype Request =
    | ConnectRequest(clientId: string, host: string, port: int, auth: Option<SimpleAuth>,
                     cleanSession: bool, keepAlive: int)
    | DisconnectRequest
    | SubscribeRequest(topicFilter: string, qos: Qos)
    | UnsubscribeRequest(topicFilter: string)
    | PublishRequest(topic: string, payload: string, qos: Qos, retain: bool)

  // ---------------------------------------------------------------------------
  // The repository's state
  // ---------------------------------------------------------------------------

  /**
   * The repository's fields: the connection state, whether a client handle is held,
   * the stored configuration and the subscribed topics in insertion order
   * (a `LinkedHashSet`, so each topic at most once).
   */
  datatype Repo = Repo(state: ConnState, hasClient: bool, config: Option<Config>, subs: seq<string>)

  /** One operation's effect: the new record, the result, the client calls made. */
  datatype Step = Step(repo: Repo, result: Outcome, calls: seq<Request>)

  const NotConnectedMessage: string := "Not connected to MQTT broker"

  /** The `IllegalStateException` returned without touching the client. */
  const NotConnected: Outcome := Failure(Some(NotConnectedMessage))

  /** A freshly constructed repository. */
  const Fresh: Repo := Repo(DISCONNECTED, false, None, [])

  predicate NoDuplicates(s: seq<string>) {
    forall i, j | 0 <= i < j < |s| :: s[i] != s[j]
  }

  lemma NoDuplicatesCons(x: string, s: seq<string>)
    ensures NoDuplicates([x] + s) <==> x !in s && NoDuplicates(s)
  {
    var t := [x] + s;
    assert forall i | 0 <= i < |s| :: t[i + 1] == s[i];
    if NoDuplicates(t) {
      forall k | 0 <= k < |s| ensures s[k] != x {
        assert t[0] != t[k + 1];
      }
      forall i, j | 0 <= i < j < |s| ensures s[i] != s[j] {
        assert t[i + 1] != t[j + 1];
      }
    }
    if x !in s && NoDuplicates(s) {
      forall i, j | 0 <= i < j < |t| ensures t[i] != t[j] {
        if i > 0 {
          assert t[i] == s[i - 1] && t[j] == s[j - 1];
        } else {
          assert t[j] == s[j - 1];
        }
      }
    }
  }

  /**
   * What holds between operations: the handle and the configuration are set together,
   * without a handle the repository is disconnected with nothing subscribed, and the
   * transient states CONNECTING and RECONNECTING are never left behind.
   */
  predicate Inv(r: Repo) {
    && NoDuplicates(r.subs)
    && (r.hasClient <==> r.config.Some?)
    && (!r.hasClient ==> r.state == DISCONNECTED && r.subs == [])
    && (r.state == DISCONNECTED || r.state == CONNECTED || r.state == ERROR)
  }

  /** The result a completed client future is turned into. */
  function Completed(t: TransportOutcome): (o: Outcome)
    ensures o.Success? <==> t.Ok?
    ensures o.Failure? ==> o.message == t.message
  {
    match t
    case Ok => Success
    case Err(m) => Failure(m)
  }

  /** `subscribedTopics.add(topic)`: appended when absent, otherwise no change. */
  function Added(subs: seq<string>, topic: string): (r: seq<string>)
    ensures forall x :: x in r <==> x in subs || x == topic
    ensures subs <= r
    ensures NoDuplicates(subs) ==> NoDuplicates(r)
  {
    if topic in subs then subs else subs + [topic]
  }

  /** The topics after adding each of `topics` in turn, as `subscribe(topics)` does on success. */
  function AddedAll(subs: seq<string>, topics: seq<string>): (r: seq<string>)
    ensures subs <= r
    ensures NoDuplicates(subs) ==> NoDuplicates(r)
    decreases |topics|
  {
    if topics == [] then subs
    else
      var last := topics[|topics| - 1];
      assert topics == topics[..|topics| - 1] + [last];
      Added(AddedAll(subs, topics[..|topics| - 1]), last)
  }

  /** After `subscribe(topics)` succeeds, the topics held are the old ones and the new ones. */
  lemma {:induction false} AddedAllMembers(subs: seq<string>, topics: seq<string>)
    ensures forall x :: x in AddedAll(subs, topics) <==> x in subs || x in topics
    decreases |topics|
  {
    if topics != [] {
      var init, last := topics[..|topics| - 1], topics[|topics| - 1];
      assert topics == init + [last];
      AddedAllMembers(subs, init);
    }
  }

  /** One more topic: the list so far with the next topic added. */
  lemma AddedAllStep(subs: seq<string>, topics: seq<string>, n: nat)
    requires n < |topics|
    ensures AddedAll(subs, topics[..n + 1]) == Added(AddedAll(subs, topics[..n]), topics[n])
  {
    assert topics[..n + 1][..n] == topics[..n];
  }

  /** Distinct topics not yet subscribed are appended in the order given. */
  lemma {:induction false} AddedAllFresh(subs: seq<string>, topics: seq<string>)
    requires NoDuplicates(subs + topics)
    ensures AddedAll(subs, topics) == subs + topics
    decreases |topics|
  {
    if topics != [] {
      var init, last := topics[..|topics| - 1], topics[|topics| - 1];
      var all := subs + topics;
      assert subs + init == all[..|all| - 1];
      assert NoDuplicates(subs + init) by {
        forall i, j | 0 <= i < j < |subs + init| ensures (subs + init)[i] != (subs + init)[j] {
          assert (subs + init)[i] == all[i] && (subs + init)[j] == all[j];
        }
      }
      assert last !in subs + init by {
        forall k | 0 <= k < |subs + init| ensures (subs + init)[k] != last {
          assert (subs + init)[k] == all[k] && last == all[|all| - 1];
        }
      }
      AddedAllFresh(subs, init);
      assert subs + init + [last] == all;
    }
  }

  /** `subscribedTopics.remove(topic)`: every other topic keeps its place. */
  function Removed(subs: seq<string>, topic: string): (r: seq<string>)
    ensures forall x :: x in r <==> x in subs && x != topic
    ensures NoDuplicates(subs) ==> NoDuplicates(r)
    ensures topic !in subs ==> r == subs
    decreases |subs|
  {
    if subs == [] then []
    else
      var rest := Removed(subs[1..], topic);
      assert subs == [subs[0]] + subs[1..];
      NoDuplicatesCons(subs[0], subs[1..]);
      NoDuplicatesCons(subs[0], rest);
      if subs[0] == topic then rest else [subs[0]] + rest
  }

  /** The topics after removing each of `topics` in turn, as `unsubscribe(topics)` does on success. */
  function RemovedAll(subs: seq<string>, topics: seq<string>): (r: seq<string>)
    ensures NoDuplicates(subs) ==> NoDuplicates(r)
    decreases |topics|
  {
    if topics == [] then subs
    else Removed(RemovedAll(subs, topics[..|topics| - 1]), topics[|topics| - 1])
  }

  /** One more topic: the list so far with the next topic removed. */
  lemma RemovedAllStep(subs: seq<string>, topics: seq<string>, n: nat)
    requires n < |topics|
    ensures RemovedAll(subs, topics[..n + 1]) == Removed(RemovedAll(subs, topics[..n]), topics[n])
  {
    assert topics[..n + 1][..n] == topics[..n];
  }

  /** The topics of `subs` that are not among `topics`, in their original order. */
  function Kept(subs: seq<string>, topics: seq<string>): (r: seq<string>)
    ensures forall x :: x in r <==> x in subs && x !in topics
    decreases |subs|
  {
    if subs == [] then []
    else
      assert subs == [subs[0]] + subs[1..];
      (if subs[0] in topics then [] else [subs[0]]) + Kept(subs[1..], topics)
  }

  /** Removing one more topic from the kept topics keeps one topic fewer. */
  lemma {:induction false} KeptStep(subs: seq<string>, topics: seq<string>, topic: string)
    ensures Removed(Kept(subs, topics), topic) == Kept(subs, topics + [topic])
    decreases |subs|
  {
    if subs != [] {
      var head, tail := subs[0], subs[1..];
      var more := topics + [topic];
      KeptStep(tail, topics, topic);
      var rest := Kept(tail, topics);
      assert Kept(subs, more) == (if head in more then [] else [head]) + Kept(tail, more);
      if head in topics {
        assert Kept(subs, topics) == rest;
      } else {
        assert Kept(subs, topics) == [head] + rest;
        assert ([head] + rest)[1..] == rest;
      }
    }
  }

  /** Keeping the topics outside an empty list keeps them all. */
  lemma {:induction false} KeptAll(subs: seq<string>)
    ensures Kept(subs, []) == subs
    decreases |subs|
  {
    if subs != [] {
      KeptAll(subs[1..]);
      assert subs == [subs[0]] + subs[1..];
    }
  }

  /** After `unsubscribe(topics)` succeeds, the remaining topics keep their order. */
  lemma {:induction false} RemovedAllKeepsOrder(subs: seq<string>, topics: seq<string>)
    ensures RemovedAll(subs, topics) == Kept(subs, topics)
    decreases |topics|
  {
    if topics == [] {
      KeptAll(subs);
    } else {
      var init, last := topics[..|topics| - 1], topics[|topics| - 1];
      RemovedAllKeepsOrder(subs, init);
      KeptStep(subs, init, last);
      assert init + [last] == topics;
    }
  }

  // ---------------------------------------------------------------------------
  // Broker URL parsing
  // ---------------------------------------------------------------------------

  const TcpPrefix: string := "tcp://"
  const SslPrefix: string := "ssl://"
  const WsPrefix: string := "ws://"
  const WssPrefix: string := "wss://"

  /** The scheme prefix both parsers recognise, tried in the order `extractHostFromUrl` tries them. */
  function KnownScheme(url: string): (p: Option<string>)
    ensures p.Some? ==> StartsWith(url, p.value)
    ensures p.Some? ==> p.value == TcpPrefix || p.value == SslPrefix || p.value == WsPrefix || p.value == WssPrefix
  {
    if StartsWith(url, TcpPrefix) then Some(TcpPrefix)
    else if StartsWith(url, SslPrefix) then Some(SslPrefix)
    else if StartsWith(url, WsPrefix) then Some(WsPrefix)
    else if StartsWith(url, WssPrefix) then Some(WssPrefix)
    else None
  }

  lemma SchemeOf(prefix: string, rest: string)
    requires prefix == TcpPrefix || prefix == SslPrefix || prefix == WsPrefix || prefix == WssPrefix
    ensures KnownScheme(prefix + rest) == Some(prefix)
    ensures HostPort(prefix + rest) == rest
  {
    var url := prefix + rest;
    assert url[..|prefix|] == prefix;
    assert url[0] == prefix[0] && url[1] == prefix[1] && url[2] == prefix[2];
    if prefix == WssPrefix {
      assert !StartsWith(url, WsPrefix) by { assert url[2] != WsPrefix[2]; }
    }
    assert RemovePrefix(url, prefix) == rest;
  }

  /** The `host[:port]` part: the URL without its recognised prefix, or the whole URL. */
  function HostPort(url: string): (hp: string)
    ensures KnownScheme(url).Some? ==> KnownScheme(url).value + hp == url
    ensures KnownScheme(url).None? ==> hp == url
  {
    match KnownScheme(url)
    case Some(prefix) => RemovePrefix(url, prefix)
    case None => url
  }

  /** The port used when none can be read: 1883, 8883, 80, 443 by scheme, 1883 otherwise. */
  function DefaultPort(url: string): int {
    match KnownScheme(url)
    case Some(prefix) =>
      if prefix == SslPrefix then 8883
      else if prefix == WsPrefix then 80
      else if prefix == WssPrefix then 443
      else 1883
    case None => 1883
  }

  /** `extractHostFromUrl`: the text before the first `:` of the `host[:port]` part. */
  function ExtractHostFromUrl(url: string): (host: string)
    ensures ':' !in host
    ensures host <= HostPort(url)
    ensures ':' in HostPort(url) ==> HostPort(url)[|host|] == ':'
    ensures ':' !in HostPort(url) ==> host == HostPort(url)
  {
    var hp := HostPort(url);
    IndexOfChar(hp, ':');
    SubstringBefore(hp, ":", hp)
  }

  /**
   * `extractPortFromUrl`: the text after the first `:` of the `host[:port]` part read
   * with `toIntOrNull`, falling back to the scheme's default. The Kotlin code's
   * missing-delimiter text ("1883", "8883", "80", "443") is the default written out.
   */
  function ExtractPortFromUrl(url: string): (port: int)
    ensures MinInt <= port <= MaxInt
    ensures ':' !in HostPort(url) ==> port == DefaultPort(url)
    ensures ':' in HostPort(url) ==>
      port == ToIntOrNull(SubstringAfter(HostPort(url), ":", "")).GetOr(DefaultPort(url))
  {
    var hp := HostPort(url);
    var d := DefaultPort(url);
    IndexOfChar(hp, ':');
    DecimalRoundTrip(d);
    ToIntOrNull(SubstringAfter(hp, ":", IntToDecimal(d))).GetOr(d)
  }

  /** Cutting `host:rest` at its first colon gives back `host` and `rest`. */
  lemma AtFirstColon(host: string, rest: string, missing: string)
    requires ':' !in host
    ensures SubstringBefore(host + ":" + rest, ":", host + ":" + rest) == host
    ensures SubstringAfter(host + ":" + rest, ":", missing) == rest
  {
    var s := host + ":" + rest;
    var colon: string := [':'];
    assert colon == ":";
    IndexOfChar(s, ':');
    assert s[|host|] == ':';
    OccursAtChar(s, ':', |host|);
    assert IndexOf(s, colon) == |host|;
  }

  /** With a recognised prefix, the parsers return the host and the port text written after it. */
  lemma SchemedUrlParts(prefix: string, host: string, portText: string)
    requires prefix == TcpPrefix || prefix == SslPrefix || prefix == WsPrefix || prefix == WssPrefix
    requires ':' !in host
    ensures var url := prefix + host + ":" + portText;
      && KnownScheme(url) == Some(prefix)
      && ExtractHostFromUrl(url) == host
      && ExtractPortFromUrl(url) == ToIntOrNull(portText).GetOr(DefaultPort(url))
  {
    var url := prefix + host + ":" + portText;
    var hp := host + ":" + portText;
    assert url == prefix + hp;
    SchemeOf(prefix, hp);
    AtFirstColon(host, portText, IntToDecimal(DefaultPort(url)));
  }

  /** Each recognised prefix is a colon-free scheme name followed by `://`. */
  lemma SchemeShape(prefix: string)
    requires prefix == TcpPrefix || prefix == SslPrefix || prefix == WsPrefix || prefix == WssPrefix
    ensures |prefix| > 3 && prefix[|prefix| - 3] == ':' && prefix[|prefix| - 2] == '/'
    ensures forall i | 0 <= i < |prefix| - 3 :: prefix[i] != ':'
  {
  }

  /** `host:text` with a colon-free host starts with no recognised prefix unless `text` starts with `/`. */
  lemma NotSchemed(prefix: string, host: string, text: string)
    requires prefix == TcpPrefix || prefix == SslPrefix || prefix == WsPrefix || prefix == WssPrefix
    requires ':' !in host
    requires |text| >= 1 && text[0] != '/'
    ensures !StartsWith(host + ":" + text, prefix)
  {
    SchemeShape(prefix);
    var url := host + ":" + text;
    var n := |prefix| - 3;
    var k := if |host| < n then |host| else if |host| > n then n else n + 1;
    assert k < |prefix| && k < |url|;
    if |host| < n {
      assert url[k] == ':' && prefix[k] != ':';
    } else if |host| > n {
      assert url[k] == host[k] && prefix[k] == ':';
    } else {
      assert url[k] == text[0] && prefix[k] == '/';
    }
  }

  /**
   * A bare `host:port` URL, with no scheme: the host is the text before the colon and the
   * port is the number after it.
   */
  lemma UnschemedUrlParts(host: string, portText: string)
    requires ':' !in host
    requires ToIntOrNull(portText).Some?
    ensures var url := host + ":" + portText;
      && KnownScheme(url) == None
      && ExtractHostFromUrl(url) == host
      && ExtractPortFromUrl(url) == ToIntOrNull(portText).value
  {
    var url := host + ":" + portText;
    NotSchemed(TcpPrefix, host, portText);
    NotSchemed(SslPrefix, host, portText);
    NotSchemed(WsPrefix, host, portText);
    NotSchemed(WssPrefix, host, portText);
    assert HostPort(url) == url;
    AtFirstColon(host, portText, IntToDecimal(1883));
  }

  /** Round trip: a URL built from a scheme, a host and a printed `Int` port parses back to both. */
  lemma SchemedUrlRoundTrip(prefix: string, host: string, port: int)
    requires prefix == TcpPrefix || prefix == SslPrefix || prefix == WsPrefix || prefix == WssPrefix
    requires ':' !in host
    requires MinInt <= port <= MaxInt
    ensures ExtractHostFromUrl(prefix + host + ":" + IntToDecimal(port)) == host
    ensures ExtractPortFromUrl(prefix + host + ":" + IntToDecimal(port)) == port
  {
    SchemedUrlParts(prefix, host, IntToDecimal(port));
    DecimalRoundTrip(port);
  }

  /** Without a port the host is the rest of the URL and the port is the scheme's default. */
  lemma SchemedUrlWithoutPort(prefix: string, host: string)
    requires prefix == TcpPrefix || prefix == SslPrefix || prefix == WsPrefix || prefix == WssPrefix
    requires ':' !in host
    ensures ExtractHostFromUrl(prefix + host) == host
    ensures ExtractPortFromUrl(prefix + host)
         == (if prefix == SslPrefix then 8883 else if prefix == WsPrefix then 80
             else if prefix == WssPrefix then 443 else 1883)
  {
    SchemeOf(prefix, host);
  }

  /** An `mqtt://` URL is not stripped: the host read is `mqtt` and the port falls back to 1883. */
  lemma MqttSchemeUrlMisread(rest: string)
    ensures ExtractHostFromUrl("mqtt://" + rest) == "mqtt"
    ensures ExtractPortFromUrl("mqtt://" + rest) == 1883
  {
    var scheme, after := "mqtt", "//" + rest;
    var url := scheme + ":" + after;
    assert url == "mqtt://" + rest;
    assert KnownScheme(url) == None by {
      assert url[0] != TcpPrefix[0] && url[0] != SslPrefix[0] && url[0] != WsPrefix[0];
    }
    AtFirstColon(scheme, after, IntToDecimal(1883));
    NoNumberAfterNonDigit(after);
  }

  // ---------------------------------------------------------------------------
  // Operations
  // ---------------------------------------------------------------------------

  /** Simple authentication is attached only with a username; a password alone is dropped. */
  function AuthFor(config: Config): (a: Option<SimpleAuth>)
    ensures a.Some? <==> config.username.Some?
    ensures a.Some? ==> a.value == SimpleAuth(config.username.value, config.password)
  {
    match config.username
    case Some(u) => Some(SimpleAuth(u, config.password))
    case None => None
  }

  /** The client built and connected for a configuration: timeout and reconnect flags are not used. */
  function ConnectRequestFor(config: Config): (req: Request) {
    ConnectRequest(config.clientId, ExtractHostFromUrl(config.brokerUrl),
                   ExtractPortFromUrl(config.brokerUrl), AuthFor(config),
                   config.cleanSession, config.keepAliveInterval)
  }

  /** `connect`: a no-op when already CONNECTED; otherwise build a client and connect it. */
  function Connect(r: Repo, config: Config, t: TransportOutcome): (s: Step)
    ensures r.state == CONNECTED ==> s == Step(r, Success, [])
    ensures r.state != CONNECTED ==> s.calls == [ConnectRequestFor(config)]
    ensures r.state != CONNECTED ==>
      s.repo.hasClient && s.repo.config == Some(config) && s.repo.subs == r.subs
    ensures r.state != CONNECTED ==>
      (s.repo.state == CONNECTED <==> t.Ok?) && (s.repo.state == ERROR <==> t.Err?)
    ensures s.result.Success? <==> r.state == CONNECTED || t.Ok?
    ensures s.result.Failure? ==> s.result.message == t.message
    ensures Inv(r) ==> Inv(s.repo)
  {
    if r.state == CONNECTED then Step(r, Success, [])
    else
      var state := if t.Ok? then CONNECTED else ERROR;
      Step(Repo(state, true, Some(config), r.subs), Completed(t), [ConnectRequestFor(config)])
  }

  /**
   * `disconnect`: without a handle it just resets; with one it asks the client, and only
   * a clean completion clears the handle, the configuration and the topics.
   */
  function Disconnect(r: Repo, t: TransportOutcome): (s: Step)
    ensures !r.hasClient ==> s == Step(Fresh, Success, [])
    ensures r.hasClient ==> s.calls == [DisconnectRequest]
    ensures s.result.Success? <==> !r.hasClient || t.Ok?
    ensures s.result.Success? ==> s.repo == Fresh
    ensures s.result.Failure? ==>
      s.repo == r.(state := ERROR) && s.result.message == t.message
    ensures Inv(r) ==> Inv(s.repo)
  {
    if !r.hasClient then Step(Fresh, Success, [])
    else if t.Ok? then Step(Fresh, Success, [DisconnectRequest])
    else Step(r.(state := ERROR), Completed(t), [DisconnectRequest])
  }

  /** `subscribe(topic, qos)`: fails fast without a handle; success records the topic. */
  function Subscribe(r: Repo, topic: string, t: TransportOutcome,
                     qos: int := MqttUtils.DefaultQos): (s: Step)
    ensures !r.hasClient ==> s == Step(r, NotConnected, [])
    ensures r.hasClient ==> s.calls == [SubscribeRequest(topic, SentQos(qos))]
    ensures s.result.Success? <==> r.hasClient && t.Ok?
    ensures s.result.Success? ==> s.repo == r.(subs := Added(r.subs, topic))
    ensures s.result.Failure? ==> s.repo == r
    ensures r.hasClient && s.result.Failure? ==> s.result.message == t.message
    ensures Inv(r) ==> Inv(s.repo)
  {
    if !r.hasClient then Step(r, NotConnected, [])
    else
      var call := [SubscribeRequest(topic, SentQos(qos))];
      if t.Ok? then Step(r.(subs := Added(r.subs, topic)), Success, call)
      else Step(r, Completed(t), call)
  }

  /** `unsubscribe(topic)`: fails fast without a handle; success forgets the topic. */
  function Unsubscribe(r: Repo, topic: string, t: TransportOutcome): (s: Step)
    ensures !r.hasClient ==> s == Step(r, NotConnected, [])
    ensures r.hasClient ==> s.calls == [UnsubscribeRequest(topic)]
    ensures s.result.Success? <==> r.hasClient && t.Ok?
    ensures s.result.Success? ==> s.repo == r.(subs := Removed(r.subs, topic))
    ensures s.result.Failure? ==> s.repo == r
    ensures r.hasClient && s.result.Failure? ==> s.result.message == t.message
    ensures Inv(r) ==> Inv(s.repo)
  {
    if !r.hasClient then Step(r, NotConnected, [])
    else
      var call := [UnsubscribeRequest(topic)];
      if t.Ok? then Step(r.(subs := Removed(r.subs, topic)), Success, call)
      else Step(r, Completed(t), call)
  }

  /** `publish(topic, message, qos, retained)`: never changes the repository. */
  function Publish(r: Repo, topic: string, message: string, t: TransportOutcome,
                   qos: int := MqttUtils.DefaultQos, retained: bool := false): (s: Step)
    ensures s.repo == r
    ensures !r.hasClient ==> s.result == NotConnected && s.calls == []
    ensures r.hasClient ==> s.calls == [PublishRequest(topic, message, SentQos(qos), retained)]
    ensures s.result.Success? <==> r.hasClient && t.Ok?
    ensures r.hasClient && s.result.Failure? ==> s.result.message == t.message
  {
    if !r.hasClient then Step(r, NotConnected, [])
    else Step(r, Completed(t), [PublishRequest(topic, message, SentQos(qos), retained)])
  }

  /** `publish(message)`: the message's own topic, payload, QoS and retain flag. */
  function PublishMessage(r: Repo, m: Message, t: TransportOutcome): (s: Step)
    ensures s.repo == r
    ensures r.hasClient ==> s.calls == [PublishRequest(m.topic, m.payload, SentQos(m.qos), m.retained)]
    ensures !r.hasClient ==> s.calls == [] && s.result == NotConnected
    ensures s.result.Success? <==> r.hasClient && t.Ok?
    ensures r.hasClient && s.result.Failure? ==> s.result.message == t.message
  {
    Publish(r, m.topic, m.payload, t, m.qos, m.retained)
  }

  function CurrentConnectionState(r: Repo): (st: ConnState) {
    r.state
  }

  function IsConnected(r: Repo): (b: bool) {
    r.state == CONNECTED
  }

  function SubscribedTopics(r: Repo): (topics: seq<string>) {
    r.subs
  }

  /**
   * `subscribe(topics, qos)`: the topics one after another, stopping at the first failure,
   * which is returned; earlier subscriptions stay. `outcomes[i]` is what the client reports
   * for `topics[i]` should it be asked; `done` counts the topics subscribed.
   */
  method SubscribeAll(r: Repo, topics: seq<string>, outcomes: seq<TransportOutcome>,
                      qos: int := MqttUtils.DefaultQos)
    returns (s: Step, done: nat)
    requires |outcomes| == |topics|
    ensures done <= |topics|
    ensures s.result.Success? <==> done == |topics|
    ensures forall i | 0 <= i < done :: outcomes[i].Ok?
    ensures done < |topics| ==>
      s.result == (if r.hasClient then Completed(outcomes[done]) else NotConnected)
    ensures s.repo == r.(subs := s.repo.subs)
    ensures s.repo.subs == AddedAll(r.subs, topics[..done])
    ensures !r.hasClient ==> s.calls == []
    ensures r.hasClient ==> |s.calls| == (if done < |topics| then done + 1 else done)
    ensures forall i | 0 <= i < |s.calls| :: s.calls[i] == SubscribeRequest(topics[i], SentQos(qos))
    ensures Inv(r) ==> Inv(s.repo)
  {
    var repo := r;
    var calls: seq<Request> := [];
    done := 0;
    while done < |topics|
      invariant done <= |topics|
      invariant forall i | 0 <= i < done :: outcomes[i].Ok?
      invariant done > 0 ==> r.hasClient
      invariant repo == r.(subs := repo.subs)
      invariant repo.subs == AddedAll(r.subs, topics[..done])
      invariant |calls| == done
      invariant forall i | 0 <= i < done :: calls[i] == SubscribeRequest(topics[i], SentQos(qos))
      invariant done == 0 ==> repo == r
    {
      var step := Subscribe(repo, topics[done], outcomes[done], qos);
      var call := SubscribeRequest(topics[done], SentQos(qos));
      assert repo.hasClient ==> step.calls == [call];
      ghost var before := calls;
      calls := calls + step.calls;
      forall i | 0 <= i < |calls| ensures calls[i] == SubscribeRequest(topics[i], SentQos(qos)) {
        if i < done { assert calls[i] == before[i]; }
      }
      if step.result.Failure? {
        return Step(repo, step.result, calls), done;
      }
      assert outcomes[done].Ok? && step.repo.subs == Added(repo.subs, topics[done]);
      AddedAllStep(r.subs, topics, done);
      assert step.repo.subs == AddedAll(r.subs, topics[..done + 1]);
      repo := step.repo;
      assert forall i | 0 <= i < done + 1 :: outcomes[i].Ok?;
      done := done + 1;
    }
    s := Step(repo, Success, calls);
  }

  /**
   * `unsubscribe(topics)`: the topics one after another, stopping at the first failure,
   * which is returned; earlier removals stay. `done` counts the topics removed.
   */
  method UnsubscribeAll(r: Repo, topics: seq<string>, outcomes: seq<TransportOutcome>)
    returns (s: Step, done: nat)
    requires |outcomes| == |topics|
    ensures done <= |topics|
    ensures s.result.Success? <==> done == |topics|
    ensures forall i | 0 <= i < done :: outcomes[i].Ok?
    ensures done < |topics| ==>
      s.result == (if r.hasClient then Completed(outcomes[done]) else NotConnected)
    ensures s.repo == r.(subs := s.repo.subs)
    ensures s.repo.subs == RemovedAll(r.subs, topics[..done])
    ensures forall x :: x in s.repo.subs <==> x in r.subs && x !in topics[..done]
    ensures !r.hasClient ==> s.calls == []
    ensures r.hasClient ==> |s.calls| == (if done < |topics| then done + 1 else done)
    ensures forall i | 0 <= i < |s.calls| :: s.calls[i] == UnsubscribeRequest(topics[i])
    ensures Inv(r) ==> Inv(s.repo)
  {
    var repo := r;
    var calls: seq<Request> := [];
    done := 0;
    while done < |topics|
      invariant done <= |topics|
      invariant forall i | 0 <= i < done :: outcomes[i].Ok?
      invariant done > 0 ==> r.hasClient
      invariant repo == r.(subs := repo.subs)
      invariant repo.subs == RemovedAll(r.subs, topics[..done])
      invariant |calls| == done
      invariant forall i | 0 <= i < done :: calls[i] == UnsubscribeRequest(topics[i])
      invariant done == 0 ==> repo == r
    {
      var step := Unsubscribe(repo, topics[done], outcomes[done]);
      ghost var before := calls;
      calls := calls + step.calls;
      forall i | 0 <= i < |calls| ensures calls[i] == UnsubscribeRequest(topics[i]) {
        if i < done { assert calls[i] == before[i]; }
      }
      if step.result.Failure? {
        RemovedAllKeepsOrder(r.subs, topics[..done]);
        return Step(repo, step.result, calls), done;
      }
      assert outcomes[done].Ok? && step.repo.subs == Removed(repo.subs, topics[done]);
      RemovedAllStep(r.subs, topics, done);
      assert step.repo.subs == RemovedAll(r.subs, topics[..done + 1]);
      repo := step.repo;
      assert forall i | 0 <= i < done + 1 :: outcomes[i].Ok?;
      done := done + 1;
    }
    RemovedAllKeepsOrder(r.subs, topics[..done]);
    s := Step(repo, Success, calls);
  }

  // ---------------------------------------------------------------------------
  // Properties
  // ---------------------------------------------------------------------------

  /** A new repository is DISCONNECTED, not connected, subscribed to nothing, and consistent. */
  lemma FreshRepository()
    ensures Inv(Fresh)
    ensures CurrentConnectionState(Fresh) == DISCONNECTED
    ensures !IsConnected(Fresh)
    ensures SubscribedTopics(Fresh) == []
  {
  }

  /**
   * Without a client handle (a new repository included) publish, subscribe and unsubscribe
   * fail with "Not connected", change nothing and never reach the client.
   */
  lemma NoClientFailsFast(r: Repo, topic: string, message: string, qos: int, retained: bool,
                          t: TransportOutcome)
    requires !r.hasClient
    ensures Publish(r, topic, message, t, qos, retained) == Step(r, NotConnected, [])
    ensures Subscribe(r, topic, t, qos) == Step(r, NotConnected, [])
    ensures Unsubscribe(r, topic, t) == Step(r, NotConnected, [])
  {
  }

  /** Between operations, CONNECTED implies a client handle. */
  lemma ConnectedHasClient(r: Repo)
    requires Inv(r) && IsConnected(r)
    ensures r.hasClient && r.config.Some?
  {
  }

  /** `subscribe(topic)` and `publish(topic, message)` use QoS 1, and publish does not retain. */
  lemma RepositoryDefaults(r: Repo, topic: string, message: string, t: TransportOutcome)
    requires r.hasClient
    ensures Subscribe(r, topic, t).calls == [SubscribeRequest(topic, AtLeastOnce)]
    ensures Publish(r, topic, message, t).calls == [PublishRequest(topic, message, AtLeastOnce, false)]
  {
  }

  /**
   * A failed connect leaves the client handle in place, so a later subscribe reaches the
   * client instead of failing fast, even though the state reads ERROR.
   */
  lemma FailedConnectKeepsHandle(r: Repo, config: Config, m: Option<string>, topic: string,
                                 qos: int, t: TransportOutcome)
    requires r.state != CONNECTED
    ensures var after := Connect(r, config, Err(m)).repo;
      && after.state == ERROR && after.hasClient
      && Subscribe(after, topic, t, qos).calls == [SubscribeRequest(topic, SentQos(qos))]
  {
  }

  /** Connecting again once connected changes nothing and makes no client call. */
  lemma ConnectIdempotent(r: Repo, c1: Config, c2: Config, t: TransportOutcome)
    requires r.state != CONNECTED
    ensures var first := Connect(r, c1, Ok);
      Connect(first.repo, c2, t) == Step(first.repo, Success, [])
  {
  }

  lemma {:induction false} RemovedAfterAppend(subs: seq<string>, topic: string)
    requires topic !in subs
    ensures Removed(subs + [topic], topic) == subs
    decreases |subs|
  {
    if subs == [] {
      assert [] + [topic] == [topic];
    } else {
      assert (subs + [topic])[1..] == subs[1..] + [topic];
      RemovedAfterAppend(subs[1..], topic);
      assert [subs[0]] + subs[1..] == subs;
    }
  }

  /**
   * Subscribing to a new topic and then unsubscribing from it, both completing normally,
   * restores the repository exactly.
   */
  lemma SubscribeUnsubscribeRoundTrip(r: Repo, topic: string, qos: int)
    requires r.hasClient && topic !in r.subs
    ensures Unsubscribe(Subscribe(r, topic, Ok, qos).repo, topic, Ok).repo == r
  {
    RemovedAfterAppend(r.subs, topic);
  }
}

=== FILE: mqtt_use_case.dfy ===
/**
 * `MqttUseCase` and `MqttResult`: ordered guard checks in front of the repository.
 * A failed guard returns its error with the repository untouched and no client call;
 * otherwise the call is forwarded and the repository's result mapped.
 */
module MqttUseCase {
  import opened Nullable
  import opened KotlinText
  import opened MqttUtils
  import opened MqttModels
  import opened MqttRepository

  // ---------------------------------------------------------------------------
  // MqttResult
  // ---------------------------------------------------------------------------

  /** The sealed `MqttResult`: a payload or an error message, never both. */
  datatype MqttResult<+T> = Success(data: T) | Error(message: string) {
    predicate IsSuccess() {
      Success?
    }

    predicate IsError() {
      Error?
    }

    /** The payload, or null for an error. */
    function GetOrNull(): (r: Option<T>)
      ensures r.Some? <==> IsSuccess()
    {
      if Success? then Some(data) else None
    }

    /** The error message, or null for a success. */
    function GetErrorOrNull(): (r: Option<string>)
      ensures r.Some? <==> IsError()
    {
      if Error? then Some(message) else None
    }

    /**
     * `onSuccess(action)`: the action, threaded through a state `acc`, runs on the payload
     * of a success only; the receiver itself comes back.
     */
    function OnSuccess<S>(acc: S, action: (S, T) -> S): (r: (S, MqttResult<T>))
      ensures r.1 == this
      ensures IsError() ==> r.0 == acc
    {
      if Success? then (action(acc, data), this) else (acc, this)
    }

    /** `onError(action)`: the action runs on the message of an error only. */
    function OnError<S>(acc: S, action: (S, string) -> S): (r: (S, MqttResult<T>))
      ensures r.1 == this
      ensures IsSuccess() ==> r.0 == acc
    {
      if Error? then (action(acc, message), this) else (acc, this)
    }
  }

  /** Exactly one of `isSuccess()` and `isError()` holds, and the two projections rebuild the value. */
  lemma ResultProjections<T>(r: MqttResult<T>)
    ensures r.IsSuccess() != r.IsError()
    ensures r.GetOrNull().Some? != r.GetErrorOrNull().Some?
    ensures r == (if r.GetOrNull().Some? then MqttResult.Success(r.GetOrNull().value)
                  else Error(r.GetErrorOrNull().value))
  {
  }

  /**
   * The usual chain `result.onSuccess(f).onError(g)` runs exactly one of the two actions,
   * on the payload or on the message, and hands back the original result.
   */
  lemma CallbackChain<S, T>(r: MqttResult<T>, acc: S, f: (S, T) -> S, g: (S, string) -> S)
    ensures var (a1, r1) := r.OnSuccess(acc, f);
      var (a2, r2) := r1.OnError(a1, g);
      && r2 == r
      && a2 == (if r.IsSuccess() then f(acc, r.data) else g(acc, r.message))
  {
  }

  /** What a use-case call does: the new repository, its result, the client calls made. */
  datatype Reply = Reply(repo: Repo, result: MqttResult<()>, calls: seq<Request>)

  const UnknownError: string := "Unknown error"

  /** `result.exceptionOrNull()?.message ?: fallback`. */
  function FailureReason(o: Outcome, fallback: string): (reason: string)
    ensures o.Failure? && o.message.Some? ==> reason == o.message.value
    ensures !(o.Failure? && o.message.Some?) ==> reason == fallback
  {
    match o
    case Failure(Some(m)) => m
    case _ => fallback
  }

  /** A repository `Result<Unit>` as an `MqttResult`, failures prefixed by `heading`. */
  function Lift(o: Outcome, heading: string): (r: MqttResult<()>)
    ensures r.IsSuccess() <==> o.Success?
    ensures r.IsError() ==> r.message == heading + FailureReason(o, UnknownError)
  {
    if o.Success? then MqttResult.Success(()) else Error(heading + FailureReason(o, UnknownError))
  }

  // ---------------------------------------------------------------------------
  // Broker URL validation
  // ---------------------------------------------------------------------------

  const MqttPrefix: string := "mqtt://"
  const SchemeSeparator: string := "://"

  /**
   * `isValidBrokerUrl`: not blank, one of three scheme prefixes, a colon somewhere, more
   * than ten UTF-16 units, and after the first `://` exactly two `:`-fields, the second an `Int`.
   */
  predicate IsValidBrokerUrl(url: string) {
    && !IsBlank(url)
    && (StartsWith(url, TcpPrefix) || StartsWith(url, SslPrefix) || StartsWith(url, MqttPrefix))
    && Contains(url, ":")
    && Utf16Length(url) > 10
    && var parts := Split(SubstringAfter(url, SchemeSeparator, url), ':');
       |parts| == 2 && ToIntOrNull(parts[1]).Some?
  }

  /** One of the three prefixes the check accepts. */
  predicate AcceptedPrefix(prefix: string) {
    prefix == TcpPrefix || prefix == SslPrefix || prefix == MqttPrefix
  }

  /** Each accepted prefix is a colon-free scheme name, not starting with whitespace, then `://`. */
  lemma AcceptedPrefixShape(prefix: string)
    requires AcceptedPrefix(prefix)
    ensures |prefix| > 3 && prefix[|prefix| - 3..] == SchemeSeparator
    ensures ':' !in prefix[..|prefix| - 3]
    ensures !IsWhitespace(prefix[0])
  {
  }

  /** The text after the first `://` of `prefix + rest` is `rest`. */
  lemma AfterAcceptedPrefix(prefix: string, rest: string, missing: string)
    requires AcceptedPrefix(prefix)
    ensures SubstringAfter(prefix + rest, SchemeSeparator, missing) == rest
  {
    AcceptedPrefixShape(prefix);
    var s := prefix + rest;
    var n := |prefix| - 3;
    assert s[n..n + 3] == SchemeSeparator;
    assert OccursAt(s, SchemeSeparator, n);
    forall i | 0 <= i < n ensures !OccursAt(s, SchemeSeparator, i) {
      assert s[i] == prefix[..n][i];
    }
    assert IndexOf(s, SchemeSeparator) == n;
    assert s[n + 3..] == rest;
  }

  /** A URL behind an accepted prefix is never blank and always holds a colon. */
  lemma AcceptedPrefixHead(prefix: string, rest: string)
    requires AcceptedPrefix(prefix)
    ensures !IsBlank(prefix + rest) && Contains(prefix + rest, ":")
  {
    AcceptedPrefixShape(prefix);
    var s := prefix + rest;
    assert s[0] == prefix[0];
    assert s[|prefix| - 3] == ':';
    ContainsChar(s, ':');
  }

  /** Text that reads as an `Int` holds no colon. */
  lemma NoColonInNumber(s: string)
    requires ToIntOrNull(s).Some?
    ensures ':' !in s
  {
    forall k | 0 <= k < |s| ensures s[k] != ':' {
      if k > 0 {
        assert s[k] == s[1..][k - 1];
      }
    }
  }

  /** Two fields joined by `:`: the inverse of a two-field `split(":")`. */
  lemma TwoFields(host: string, portText: string)
    requires ':' !in host && ':' !in portText
    ensures Split(host + ":" + portText, ':') == [host, portText]
  {
    SplitAppend(host, portText, ':');
    SplitWithoutDelimiter(host, ':');
    SplitWithoutDelimiter(portText, ':');
  }

  lemma ConcatShape(prefix: string, rest: string, host: string, portText: string)
    requires rest == host + ":" + portText
    ensures prefix + rest == prefix + host + ":" + portText
  {
  }

  /** A text that splits into two `:`-fields is the two fields joined by `:`. */
  lemma TwoFieldsOf(s: string) returns (first: string, second: string)
    requires |Split(s, ':')| == 2
    ensures Split(s, ':') == [first, second]
    ensures s == first + ":" + second
    ensures ':' !in first && ':' !in second
  {
    var parts := Split(s, ':');
    first, second := parts[0], parts[1];
    JoinCons(first, parts[1..], ':');
    assert parts[1..] == [second];
  }

  /**
   * The accepted URLs, characterised: for an accepted prefix and a colon-free host,
   * `prefix + host + ":" + portText` is accepted exactly when the port text reads as an
   * `Int` and the whole is longer than ten units.
   */
  lemma BrokerUrlRule(prefix: string, host: string, portText: string)
    requires AcceptedPrefix(prefix)
    requires ':' !in host
    ensures var url := prefix + host + ":" + portText;
      IsValidBrokerUrl(url) <==> ToIntOrNull(portText).Some? && Utf16Length(url) > 10
  {
    var url := prefix + host + ":" + portText;
    var rest := host + ":" + portText;
    assert url == prefix + rest;
    assert StartsWith(url, prefix);
    AcceptedPrefixHead(prefix, rest);
    AfterAcceptedPrefix(prefix, rest, url);
    if ToIntOrNull(portText).Some? {
      NoColonInNumber(portText);
      TwoFields(host, portText);
    } else {
      SplitAppend(host, portText, ':');
      SplitWithoutDelimiter(host, ':');
      var tail := Split(portText, ':');
      if |tail| == 1 {
        assert Join(tail, ':') == tail[0];
      }
    }
  }

  /** The accepted prefix a URL starts with, `tcp://` and `ssl://` tried first. */
  lemma PrefixOf(url: string) returns (prefix: string)
    requires StartsWith(url, TcpPrefix) || StartsWith(url, SslPrefix) || StartsWith(url, MqttPrefix)
    ensures AcceptedPrefix(prefix) && StartsWith(url, prefix)
    ensures prefix == TcpPrefix || prefix == SslPrefix <==>
      StartsWith(url, TcpPrefix) || StartsWith(url, SslPrefix)
  {
    if StartsWith(url, TcpPrefix) {
      prefix := TcpPrefix;
    } else if StartsWith(url, SslPrefix) {
      prefix := SslPrefix;
    } else {
      prefix := MqttPrefix;
    }
  }

  /** An accepted URL is an accepted prefix followed by two `:`-fields, the second an `Int`. */
  lemma ValidBrokerUrlTail(url: string) returns (prefix: string, rest: string)
    requires IsValidBrokerUrl(url)
    ensures AcceptedPrefix(prefix) && url == prefix + rest
    ensures prefix == TcpPrefix || prefix == SslPrefix <==>
      StartsWith(url, TcpPrefix) || StartsWith(url, SslPrefix)
    ensures |Split(rest, ':')| == 2 && ToIntOrNull(Split(rest, ':')[1]).Some?
  {
    prefix := PrefixOf(url);
    rest := url[|prefix|..];
    assert url == prefix + rest;
    AfterAcceptedPrefix(prefix, rest, url);
  }

  /**
   * Every accepted URL is an accepted prefix, a colon-free host, `:` and a port text that
   * reads as an `Int`; the prefix is `tcp://` or `ssl://` exactly when the URL starts so.
   */
  lemma ValidBrokerUrlParts(url: string) returns (prefix: string, host: string, portText: string)
    requires IsValidBrokerUrl(url)
    ensures AcceptedPrefix(prefix)
    ensures prefix == TcpPrefix || prefix == SslPrefix <==>
      StartsWith(url, TcpPrefix) || StartsWith(url, SslPrefix)
    ensures url == prefix + host + ":" + portText
    ensures ':' !in host && ':' !in portText
    ensures ToIntOrNull(portText).Some?
  {
    var rest;
    prefix, rest := ValidBrokerUrlTail(url);
    host, portText := TwoFieldsOf(rest);
    ConcatShape(prefix, rest, host, portText);
  }

  /**
   * For an accepted `tcp://` or `ssl://` URL the repository connects to exactly the host
   * and the port written in it.
   */
  lemma ValidUrlAddress(url: string) returns (host: string, portText: string)
    requires IsValidBrokerUrl(url)
    requires StartsWith(url, TcpPrefix) || StartsWith(url, SslPrefix)
    ensures ':' !in host
    ensures url == KnownScheme(url).value + host + ":" + portText
    ensures ExtractHostFromUrl(url) == host
    ensures ToIntOrNull(portText) == Some(ExtractPortFromUrl(url))
  {
    var prefix;
    prefix, host, portText := ValidBrokerUrlParts(url);
    SchemedUrlParts(prefix, host, portText);
  }

  /**
   * An accepted `mqtt://` URL is not understood by the repository's parsers: whatever host
   * and port it names, the client is pointed at host `mqtt`, port 1883.
   */
  lemma ValidMqttUrlMisread(url: string)
    requires IsValidBrokerUrl(url) && StartsWith(url, MqttPrefix)
    ensures ExtractHostFromUrl(url) == "mqtt"
    ensures ExtractPortFromUrl(url) == 1883
  {
    var rest := url[|MqttPrefix|..];
    assert url == "mqtt://" + rest;
    MqttSchemeUrlMisread(rest);
  }


  // ---------------------------------------------------------------------------
  // Connection
  // ---------------------------------------------------------------------------

  const InvalidBrokerUrlMessage: string := "Invalid broker URL format. Use tcp://hostname:port"
  const ConnectionFailedLabel: string := "Connection failed: "

  /** The configuration `connectToBroker` builds: keep-alive 60, timeout 30, clean session, reconnect. */
  function BrokerConfig(url: string, clientId: string, username: Option<string>,
                        password: Option<string>): (c: Config)
    ensures c.brokerUrl == url && c.clientId == clientId
    ensures c.username == username && c.password == password
    ensures c.keepAliveInterval == 60 && c.connectionTimeout == 30
    ensures c.cleanSession && c.automaticReconnect
  {
    Config(url, clientId, username, password, DefaultKeepAliveInterval, DefaultConnectionTimeout, true, true)
  }

  /** The repository's connect with its result mapped to an `MqttResult`. */
  function ConnectAndReport(r: Repo, config: Config, t: TransportOutcome): (s: Reply)
    ensures r.state != CONNECTED ==>
      s.repo == Repo(if t.Ok? then CONNECTED else ERROR, true, Some(config), r.subs) &&
      s.calls == [ConnectRequestFor(config)]
    ensures r.state == CONNECTED ==> s.repo == r && s.calls == []
    ensures s.result.IsSuccess() <==> r.state == CONNECTED || t.Ok?
    ensures s.result.IsError() ==> s.result.message == ConnectionFailedLabel + t.message.GetOr(UnknownError)
    ensures Inv(r) ==> Inv(s.repo)
  {
    var step := Connect(r, config, t);
    Reply(step.repo, Lift(step.result, ConnectionFailedLabel), step.calls)
  }

  /**
   * `connectToBroker(brokerUrl, clientId, username, password)`. `generatedId` stands for
   * the id `generateClientId` makes from the clock and a random number when none is given.
   */
  function ConnectToBroker(r: Repo, url: string, generatedId: string, t: TransportOutcome,
                           clientId: Option<string> := None, username: Option<string> := None,
                           password: Option<string> := None): (s: Reply)
    ensures !IsValidBrokerUrl(url) ==> s == Reply(r, Error(InvalidBrokerUrlMessage), [])
    ensures IsValidBrokerUrl(url) && r.state != CONNECTED ==>
      && s.repo == Repo(if t.Ok? then CONNECTED else ERROR, true,
                        Some(BrokerConfig(url, clientId.GetOr(generatedId), username, password)), r.subs)
      && s.calls == [ConnectRequest(clientId.GetOr(generatedId), ExtractHostFromUrl(url),
                                    ExtractPortFromUrl(url), AuthFor(s.repo.config.value), true, 60)]
    ensures IsValidBrokerUrl(url) && r.state == CONNECTED ==> s.repo == r && s.calls == []
    ensures s.result.IsSuccess() <==> IsValidBrokerUrl(url) && (r.state == CONNECTED || t.Ok?)
    ensures IsValidBrokerUrl(url) && s.result.IsError() ==>
      s.result.message == ConnectionFailedLabel + t.message.GetOr(UnknownError)
    ensures Inv(r) ==> Inv(s.repo)
  {
    if !IsValidBrokerUrl(url) then Reply(r, Error(InvalidBrokerUrlMessage), [])
    else ConnectAndReport(r, BrokerConfig(url, clientId.GetOr(generatedId), username, password), t)
  }

  const InvalidBrokerUrlShort: string := "Invalid broker URL"

  /** `connectToBroker(config)`: the given configuration, if its URL is accepted. */
  function ConnectToBrokerWithConfig(r: Repo, config: Config, t: TransportOutcome): (s: Step)
    ensures !IsValidBrokerUrl(config.brokerUrl) ==>
      s == Step(r, Failure(Some(InvalidBrokerUrlShort)), [])
    ensures IsValidBrokerUrl(config.brokerUrl) ==> s == Connect(r, config, t)
    ensures IsValidBrokerUrl(config.brokerUrl) && r.state != CONNECTED ==>
      && s.calls == [ConnectRequestFor(config)]
      && s.repo == Repo(if t.Ok? then CONNECTED else ERROR, true, Some(config), r.subs)
    ensures s.result.Success? <==> IsValidBrokerUrl(config.brokerUrl) && (r.state == CONNECTED || t.Ok?)
    ensures IsValidBrokerUrl(config.brokerUrl) && s.result.Failure? ==> s.result.message == t.message
    ensures Inv(r) ==> Inv(s.repo)
  {
    if IsValidBrokerUrl(config.brokerUrl) then Connect(r, config, t)
    else Step(r, Failure(Some(InvalidBrokerUrlShort)), [])
  }

  const DisconnectFailedLabel: string := "Disconnect failed: "

  /** `disconnectFromBroker`. */
  function DisconnectFromBroker(r: Repo, t: TransportOutcome): (s: Reply)
    ensures s.result.IsSuccess() <==> !r.hasClient || t.Ok?
    ensures s.result.IsSuccess() ==> s.repo == Fresh
    ensures s.result.IsError() ==>
      s.repo == r.(state := ERROR) && s.result.message == DisconnectFailedLabel + t.message.GetOr(UnknownError)
    ensures s.calls == (if r.hasClient then [DisconnectRequest] else [])
  {
    var step := Disconnect(r, t);
    Reply(step.repo, Lift(step.result, DisconnectFailedLabel), step.calls)
  }

  // ---------------------------------------------------------------------------
  // Subscriptions
  // ---------------------------------------------------------------------------

  const InvalidSubscriptionLabel: string := "Invalid subscription topic: "
  const AlreadySubscribedLabel: string := "Already subscribed to topic: "
  const SubscriptionFailedLabel: string := "Subscription failed: "

  /**
   * `subscribeToTopic(topic, qos)`: an invalid filter, then a topic already subscribed,
   * are refused before the repository is asked.
   */
  function SubscribeToTopic(r: Repo, topic: string, t: TransportOutcome,
                            qos: int := DefaultQos): (s: Reply)
    ensures !IsValidSubscriptionTopic(topic) ==> s == Reply(r, Error(InvalidSubscriptionLabel + topic), [])
    ensures IsValidSubscriptionTopic(topic) && topic in r.subs ==>
      s == Reply(r, Error(AlreadySubscribedLabel + topic), [])
    ensures s.calls != [] <==> IsValidSubscriptionTopic(topic) && topic !in r.subs && r.hasClient
    ensures s.calls != [] ==> s.calls == [SubscribeRequest(topic, SentQos(qos))]
    ensures s.result.IsSuccess() <==> IsValidSubscriptionTopic(topic) && topic !in r.subs && r.hasClient && t.Ok?
    ensures s.result.IsSuccess() ==> s.repo == r.(subs := r.subs + [topic])
    ensures IsValidSubscriptionTopic(topic) && topic !in r.subs && s.result.IsError() ==>
      s.result.message == SubscriptionFailedLabel +
        (if r.hasClient then t.message.GetOr(UnknownError) else NotConnectedMessage)
    ensures s.result.IsError() ==> s.repo == r
    ensures Inv(r) ==> Inv(s.repo)
  {
    if !IsValidSubscriptionTopic(topic) then Reply(r, Error(InvalidSubscriptionLabel + topic), [])
    else if topic in SubscribedTopics(r) then Reply(r, Error(AlreadySubscribedLabel + topic), [])
    else
      var step := Subscribe(r, topic, t, qos);
      Reply(step.repo, Lift(step.result, SubscriptionFailedLabel), step.calls)
  }

  /** `topics.filter { !isValidSubscriptionTopic(it) }`, in the original order. */
  function InvalidTopics(topics: seq<string>): (bad: seq<string>)
    ensures forall x :: x in bad <==> x in topics && !IsValidSubscriptionTopic(x)
    ensures |bad| <= |topics|
  {
    if topics == [] then []
    else
      var rest := InvalidTopics(topics[1..]);
      assert topics == [topics[0]] + topics[1..];
      if IsValidSubscriptionTopic(topics[0]) then rest else [topics[0]] + rest
  }

  /** `joinToString(", ")`. */
  function JoinWithComma(items: seq<string>): string {
    if |items| == 0 then []
    else if |items| == 1 then items[0]
    else items[0] + ", " + JoinWithComma(items[1..])
  }

  /** `List<String>.toString()`: the items between brackets, separated by a comma and a space. */
  function ListToString(items: seq<string>): (text: string)
    ensures |text| >= 2 && text[0] == '[' && text[|text| - 1] == ']'
  {
    "[" + JoinWithComma(items) + "]"
  }

  const InvalidTopicsLabel: string := "Invalid topics: "

  /**
   * `subscribeToTopics(topics, qos)`: if any filter is invalid, the whole call fails listing
   * them and nothing is subscribed; otherwise the list goes to the repository unchanged.
   */
  method SubscribeToTopics(r: Repo, topics: seq<string>, outcomes: seq<TransportOutcome>,
                           qos: int := DefaultQos)
    returns (s: Step, done: nat)
    requires |outcomes| == |topics|
    ensures InvalidTopics(topics) != [] ==>
      s == Step(r, Failure(Some(InvalidTopicsLabel + ListToString(InvalidTopics(topics)))), []) && done == 0
    ensures done <= |topics| && |s.calls| <= |topics|
    ensures s.result.Success? <==> InvalidTopics(topics) == [] && done == |topics|
    ensures forall i | 0 <= i < done :: IsValidSubscriptionTopic(topics[i]) && outcomes[i].Ok?
    ensures forall x :: x in s.repo.subs <==> x in r.subs || x in topics[..done]
    ensures forall i | 0 <= i < |s.calls| :: s.calls[i] == SubscribeRequest(topics[i], SentQos(qos))
    ensures InvalidTopics(topics) == [] ==>
      && (done < |topics| ==> s.result == (if r.hasClient then Completed(outcomes[done]) else NotConnected))
      && s.repo == r.(subs := s.repo.subs)
      && s.repo.subs == AddedAll(r.subs, topics[..done])
      && (!r.hasClient ==> s.calls == [])
      && (r.hasClient ==> |s.calls| == (if done < |topics| then done + 1 else done))
    ensures Inv(r) ==> Inv(s.repo)
  {
    var bad := InvalidTopics(topics);
    if bad != [] {
      return Step(r, Failure(Some(InvalidTopicsLabel + ListToString(bad))), []), 0;
    }
    s, done := SubscribeAll(r, topics, outcomes, qos);
    AddedAllMembers(r.subs, topics[..done]);
  }

  // ---------------------------------------------------------------------------
  // Publishing
  // ---------------------------------------------------------------------------

  const InvalidPublishLabel: string := "Invalid publish topic: "
  const EmptyMessageMessage: string := "Message cannot be empty"
  const QosRangeMessage: string := "QoS must be 0, 1, or 2"
  const PublishFailedLabel: string := "Publish failed: "

  /** The first of `publishMessage`'s argument checks to fail, if any. */
  function PublishRejection(topic: string, message: string, qos: int): (e: Option<string>)
    ensures e.None? <==> IsValidPublishTopic(topic) && !IsBlank(message) && 0 <= qos <= 2
    ensures !IsValidPublishTopic(topic) ==> e == Some(InvalidPublishLabel + topic)
    ensures IsValidPublishTopic(topic) && IsBlank(message) ==> e == Some(EmptyMessageMessage)
    ensures IsValidPublishTopic(topic) && !IsBlank(message) && !(0 <= qos <= 2) ==> e == Some(QosRangeMessage)
  {
    if !IsValidPublishTopic(topic) then Some(InvalidPublishLabel + topic)
    else if IsBlank(message) then Some(EmptyMessageMessage)
    else if !(QosAtMostOnce <= qos <= QosExactlyOnce) then Some(QosRangeMessage)
    else None
  }

  /**
   * `publishMessage(topic, message, qos, retained)`: the three argument checks and then
   * the connection state, each failing before the repository is asked.
   */
  function PublishMessage(r: Repo, topic: string, message: string, t: TransportOutcome,
                          qos: int := DefaultQos, retained: bool := false): (s: Reply)
    ensures s.repo == r
    ensures PublishRejection(topic, message, qos).Some? ==>
      s.result == Error(PublishRejection(topic, message, qos).value) && s.calls == []
    ensures PublishRejection(topic, message, qos).None? && !IsConnected(r) ==>
      s.result == Error(NotConnectedMessage) && s.calls == []
    ensures s.calls != [] <==> PublishRejection(topic, message, qos).None? && IsConnected(r) && r.hasClient
    ensures s.calls != [] ==>
      s.calls == [PublishRequest(topic, message, SentQos(qos), retained)] && SentQos(qos).Code() == qos
    ensures s.result.IsSuccess() <==>
      PublishRejection(topic, message, qos).None? && IsConnected(r) && r.hasClient && t.Ok?
    ensures s.result.IsError() && s.calls != [] ==>
      s.result.message == PublishFailedLabel + t.message.GetOr(UnknownError)
  {
    var rejection := PublishRejection(topic, message, qos);
    if rejection.Some? then Reply(r, Error(rejection.value), [])
    else if !IsConnected(r) then Reply(r, Error(NotConnectedMessage), [])
    else
      var step := Publish(r, topic, message, t, qos, retained);
      Reply(step.repo, Lift(step.result, PublishFailedLabel), step.calls)
  }

  /** Between operations an admissible publish while CONNECTED always reaches the client. */
  lemma ConnectedPublishReachesClient(r: Repo, topic: string, message: string, t: TransportOutcome,
                                      qos: int, retained: bool)
    requires Inv(r) && IsConnected(r)
    requires PublishRejection(topic, message, qos).None?
    ensures PublishMessage(r, topic, message, t, qos, retained).calls
         == [PublishRequest(topic, message, SentQos(qos), retained)]
  {
  }

  /** `publishDeviceStatus(deviceId, status, retained)`: QoS 1, to `device/<id>/status`. */
  function PublishDeviceStatus(r: Repo, deviceId: string, status: string, t: TransportOutcome,
                               retained: bool := true): (s: Reply)
    ensures s.repo == r
    ensures s.calls != [] ==>
      s.calls == [PublishRequest(DeviceLevel + "/" + deviceId + "/" + StatusSubtopic, status, AtLeastOnce, retained)]
    ensures s.calls != [] <==>
      && IsValidPublishTopic(BuildDeviceTopic(deviceId, StatusSubtopic)) && !IsBlank(status)
      && IsConnected(r) && r.hasClient
    ensures s.result.IsSuccess() <==> s.calls != [] && t.Ok?
    ensures s.result.IsError() && s.calls != [] ==>
      s.result.message == PublishFailedLabel + t.message.GetOr(UnknownError)
  {
    PublishMessage(r, BuildDeviceTopic(deviceId, StatusSubtopic), status, t, retained := retained)
  }

  /** `publishDeviceData(deviceId, data, qos)`: not retained, to `device/<id>/data`. */
  function PublishDeviceData(r: Repo, deviceId: string, data: string, t: TransportOutcome,
                             qos: int := DefaultQos): (s: Reply)
    ensures s.repo == r
    ensures s.calls != [] ==>
      s.calls == [PublishRequest(DeviceLevel + "/" + deviceId + "/" + DataSubtopic, data, SentQos(qos), false)]
    ensures s.calls != [] <==>
      && IsValidPublishTopic(BuildDeviceTopic(deviceId, DataSubtopic)) && !IsBlank(data)
      && 0 <= qos <= 2 && IsConnected(r) && r.hasClient
    ensures s.result.IsSuccess() <==> s.calls != [] && t.Ok?
    ensures s.result.IsError() && s.calls != [] ==>
      s.result.message == PublishFailedLabel + t.message.GetOr(UnknownError)
  {
    PublishMessage(r, BuildDeviceTopic(deviceId, DataSubtopic), data, t, qos := qos)
  }

  /** The filter the device-status subscription uses: one device, or every device. */
  function DeviceStatusFilter(deviceId: Option<string>): (topic: string)
    ensures deviceId.None? ==> IsValidSubscriptionTopic(topic)
    ensures deviceId.Some? ==> topic == BuildDeviceTopic(deviceId.value, StatusSubtopic)
  {
    StatusPatternShape();
    StatusWildcardFilter();
    match deviceId
    case Some(id) => BuildDeviceTopic(id, StatusSubtopic)
    case None => DeviceStatusTopicPattern
  }

  /** The filter the device-data subscription uses: one device, or every device. */
  function DeviceDataFilter(deviceId: Option<string>): (topic: string)
    ensures deviceId.None? ==> IsValidSubscriptionTopic(topic)
    ensures deviceId.Some? ==> topic == BuildDeviceTopic(deviceId.value, DataSubtopic)
  {
    DataPatternShape();
    DataWildcardFilter();
    match deviceId
    case Some(id) => BuildDeviceTopic(id, DataSubtopic)
    case None => DeviceDataTopicPattern
  }

  /** `subscribeToDeviceStatus(deviceId)` with the default QoS 1. */
  function SubscribeToDeviceStatus(r: Repo, t: TransportOutcome, deviceId: Option<string> := None): (s: Reply)
    ensures deviceId.None? && DeviceStatusTopicPattern !in r.subs && r.hasClient ==>
      s.calls == [SubscribeRequest(DeviceStatusTopicPattern, AtLeastOnce)]
    ensures s.result.IsSuccess() ==> s.repo.subs == r.subs + [DeviceStatusFilter(deviceId)]
    ensures Inv(r) ==> Inv(s.repo)
  {
    SubscribeToTopic(r, DeviceStatusFilter(deviceId), t)
  }

  /** `subscribeToDeviceData(deviceId)` with the default QoS 1. */
  function SubscribeToDeviceData(r: Repo, t: TransportOutcome, deviceId: Option<string> := None): (s: Reply)
    ensures deviceId.None? && DeviceDataTopicPattern !in r.subs && r.hasClient ==>
      s.calls == [SubscribeRequest(DeviceDataTopicPattern, AtLeastOnce)]
    ensures s.result.IsSuccess() ==> s.repo.subs == r.subs + [DeviceDataFilter(deviceId)]
    ensures Inv(r) ==> Inv(s.repo)
  {
    SubscribeToTopic(r, DeviceDataFilter(deviceId), t)
  }

  // ---------------------------------------------------------------------------
  // Default arguments
  // ---------------------------------------------------------------------------

  /** `subscribeToTopic(topic)` asks for QoS 1. */
  lemma SubscribeToTopicAtLeastOnceByDefault(r: Repo, topic: string, t: TransportOutcome)
    ensures SubscribeToTopic(r, topic, t).calls != [] ==>
      SubscribeToTopic(r, topic, t).calls == [SubscribeRequest(topic, AtLeastOnce)]
  {
  }

  /** `publishMessage(topic, message)` sends at QoS 1 and does not retain. */
  lemma PublishMessageDefaults(r: Repo, topic: string, message: string, t: TransportOutcome)
    ensures PublishMessage(r, topic, message, t).calls != [] ==>
      PublishMessage(r, topic, message, t).calls == [PublishRequest(topic, message, AtLeastOnce, false)]
  {
  }

  /** `publishDeviceStatus(deviceId, status)` retains the status, at QoS 1. */
  lemma DeviceStatusRetainedByDefault(r: Repo, deviceId: string, status: string, t: TransportOutcome)
    ensures var s := PublishDeviceStatus(r, deviceId, status, t);
      s.calls != [] ==> s.calls == [PublishRequest(BuildDeviceTopic(deviceId, StatusSubtopic), status, AtLeastOnce, true)]
  {
  }

  /** `publishDeviceData(deviceId, data)` sends at QoS 1, so only the topic and the data can refuse it. */
  lemma DeviceDataAtLeastOnceByDefault(r: Repo, deviceId: string, data: string, t: TransportOutcome)
    ensures var s := PublishDeviceData(r, deviceId, data, t);
      && (s.calls != [] ==> s.calls == [PublishRequest(BuildDeviceTopic(deviceId, DataSubtopic), data, AtLeastOnce, false)])
      && (s.calls != [] <==>
            IsValidPublishTopic(BuildDeviceTopic(deviceId, DataSubtopic)) && !IsBlank(data) && IsConnected(r) && r.hasClient)
  {
  }

  /** Without a device id the device subscriptions cover every device. */
  lemma DeviceSubscriptionsCoverEveryDeviceByDefault(r: Repo, t: TransportOutcome)
    ensures SubscribeToDeviceStatus(r, t) == SubscribeToTopic(r, DeviceStatusTopicPattern, t)
    ensures SubscribeToDeviceData(r, t) == SubscribeToTopic(r, DeviceDataTopicPattern, t)
    ensures SubscribeToDeviceStatus(r, t).result.IsSuccess() ==>
      SubscribeToDeviceStatus(r, t).repo.subs == r.subs + [DeviceStatusTopicPattern]
    ensures SubscribeToDeviceData(r, t).result.IsSuccess() ==>
      SubscribeToDeviceData(r, t).repo.subs == r.subs + [DeviceDataTopicPattern]
  {
  }
}

=== FILE: mqtt_utils.dfy ===
/**
 * `MqttConstants` and `MqttTopicUtils`: the topic grammar used by the use case and the
 * view model. The rules echo section 4.7 of MQTT Version 3.1.1 but follow the code:
 * lengths are Kotlin `String.length` (UTF-16 units), every `$`-prefixed topic is refused,
 * U+0000 is allowed, and "blank" means whitespace-only.
 */
module MqttUtils {
  import opened Nullable
  import opened KotlinText

  // MqttConstants
  const QosAtMostOnce: int := 0
  const QosAtLeastOnce: int := 1
  const QosExactlyOnce: int := 2
  const DefaultKeepAliveInterval: int := 60
  const DefaultConnectionTimeout: int := 30
  const DefaultQos: int := QosAtLeastOnce
  const TopicSeparator: string := "/"
  const SingleLevelWildcard: string := "+"
  const MultiLevelWildcard: string := "#"
  const DeviceStatusTopicPattern: string := "device/+/status"
  const DeviceDataTopicPattern: string := "device/+/data"
  const SystemTopicPattern: string := "$SYS/#"

  /** The fixed first level and the two subtopics of the device namespace. */
  const DeviceLevel: string := "device"
  const StatusSubtopic: string := "status"
  const DataSubtopic: string := "data"

  /** The ceiling on `topic.length` that both validators apply. */
  const MaxTopicLength: nat := 65535

  // ---------------------------------------------------------------------------
  // Validators
  // ---------------------------------------------------------------------------

  predicate IsValidPublishTopic(topic: string) {
    && !IsBlank(topic)
    && !Contains(topic, SingleLevelWildcard)
    && !Contains(topic, MultiLevelWildcard)
    && !StartsWith(topic, "$")
    && Utf16Length(topic) <= MaxTopicLength
  }

  predicate IsValidSubscriptionTopic(topic: string) {
    && !IsBlank(topic)
    && !StartsWith(topic, "$")
    && Utf16Length(topic) <= MaxTopicLength
    && IsValidWildcardUsage(topic)
  }

  /** The character the `+` scan sees before index `i`: start-of-string reads as `/`. */
  function CharBefore(topic: string, i: int): char
    requires 0 <= i < |topic|
  {
    if i > 0 then topic[i - 1] else '/'
  }

  /** The character the `+` scan sees after index `i`: end-of-string reads as `/`. */
  function CharAfter(topic: string, i: int): char
    requires 0 <= i < |topic|
  {
    if i < |topic| - 1 then topic[i + 1] else '/'
  }

  /**
   * The wildcard check as written: the first `#` must be the last character and follow a
   * `/` unless it is at index 0; every `+` must have `/` (or an end of the string) on both sides.
   */
  predicate IsValidWildcardUsage(topic: string) {
    var multiLevelIndex := IndexOf(topic, MultiLevelWildcard);
    && (multiLevelIndex != -1 ==>
          && multiLevelIndex == |topic| - 1
          && (multiLevelIndex > 0 ==> topic[multiLevelIndex - 1] == '/'))
    && forall i | 0 <= i < |topic| && topic[i] == '+' ::
         CharBefore(topic, i) == '/' && CharAfter(topic, i) == '/'
  }

  /** `"device/$deviceId/$subtopic"`; neither part is checked. */
  function BuildDeviceTopic(deviceId: string, subtopic: string): (topic: string) {
    DeviceLevel + TopicSeparator + deviceId + TopicSeparator + subtopic
  }

  /** The second `/`-field of a topic with at least three fields whose first is `device`. */
  function ExtractDeviceId(topic: string): (id: Option<string>)
    ensures id.Some? ==> '/' !in id.value
    ensures id.Some? ==> StartsWith(topic, DeviceLevel + TopicSeparator + id.value + TopicSeparator)
  {
    var parts := Split(topic, '/');
    if |parts| >= 3 && parts[0] == DeviceLevel then
      assert parts == [parts[0]] + [parts[1]] + parts[2..];
      JoinAppend([parts[0]], parts[1..], '/');
      JoinAppend([parts[1]], parts[2..], '/');
      Some(parts[1])
    else None
  }

  // ---------------------------------------------------------------------------
  // Properties
  // ---------------------------------------------------------------------------

  /** The publish rule in plain terms: non-blank, no wildcard anywhere, no leading `$`, bounded. */
  lemma PublishTopicRule(topic: string)
    ensures IsValidPublishTopic(topic) <==>
      && !IsBlank(topic)
      && '+' !in topic
      && '#' !in topic
      && (|topic| == 0 || topic[0] != '$')
      && Utf16Length(topic) <= MaxTopicLength
  {
    ContainsChar(topic, '+');
    ContainsChar(topic, '#');
  }

  /** Where the wildcards may stand in a filter that passes the wildcard check. */
  lemma WildcardPlacement(topic: string)
    ensures IsValidWildcardUsage(topic) <==>
      && (forall i | 0 <= i < |topic| && topic[i] == '#' ::
            i == |topic| - 1 && (i == 0 || topic[i - 1] == '/'))
      && (forall i | 0 <= i < |topic| && topic[i] == '+' ::
            (i == 0 || topic[i - 1] == '/') && (i == |topic| - 1 || topic[i + 1] == '/'))
  {
    IndexOfChar(topic, '#');
    var h := IndexOf(topic, "#");
    if h != -1 {
      assert topic[h] == '#' && '#' !in topic[..h];
      forall i | 0 <= i < h ensures topic[i] != '#' {
        assert topic[..h][i] == topic[i];
      }
    }
  }

  /** A filter holds at most one `#`: two positions holding it coincide. */
  lemma MultiLevelWildcardAtMostOnce(topic: string, i: int, j: int)
    requires IsValidWildcardUsage(topic)
    requires 0 <= i < |topic| && 0 <= j < |topic| && topic[i] == '#' && topic[j] == '#'
    ensures i == j == |topic| - 1
  {
    WildcardPlacement(topic);
  }

  /** A topic starting with `$` (such as `$SYS/broker/load`) is refused by both validators. */
  lemma DollarTopicsRefused(topic: string)
    requires |topic| >= 1 && topic[0] == '$'
    ensures !IsValidPublishTopic(topic) && !IsValidSubscriptionTopic(topic)
  {
    assert StartsWith(topic, "$");
  }

  /** `SYSTEM_TOPIC_PATTERN`, `$SYS/#`, is refused by both validators like every `$` topic. */
  lemma SystemPatternRefused()
    ensures !IsValidPublishTopic(SystemTopicPattern) && !IsValidSubscriptionTopic(SystemTopicPattern)
  {
    DollarTopicsRefused(SystemTopicPattern);
  }

  /** With no wildcard in it, a publish topic passes the wildcard check vacuously. */
  lemma PublishTopicIsSubscriptionTopic(topic: string)
    requires IsValidPublishTopic(topic)
    ensures IsValidSubscriptionTopic(topic)
  {
    PublishTopicRule(topic);
    IndexOfChar(topic, '#');
  }

  /** A built device topic has `device`, the id's fields and the subtopic's fields as its levels. */
  lemma DeviceTopicLevels(deviceId: string, subtopic: string)
    ensures Split(BuildDeviceTopic(deviceId, subtopic), '/')
         == [DeviceLevel] + Split(deviceId, '/') + Split(subtopic, '/')
  {
    assert BuildDeviceTopic(deviceId, subtopic) == DeviceLevel + ['/'] + deviceId + ['/'] + subtopic;
    SplitAppend3(DeviceLevel, deviceId, subtopic, '/');
  }

  /**
   * `extractDeviceId` finds an id exactly when the topic starts with `device/<id>/`
   * and the id holds no `/`.
   */
  lemma DeviceIdCharacterization(topic: string, id: string)
    ensures ExtractDeviceId(topic) == Some(id) <==>
      '/' !in id && StartsWith(topic, DeviceLevel + TopicSeparator + id + TopicSeparator)
  {
    if '/' !in id && StartsWith(topic, DeviceLevel + TopicSeparator + id + TopicSeparator) {
      var rest := topic[|id| + 8..];
      assert topic == BuildDeviceTopic(id, rest);
      DeviceTopicLevels(id, rest);
      SplitWithoutDelimiter(id, '/');
    }
  }

  /** Round trip: the id a device topic was built from is the id read back from it. */
  lemma DeviceTopicRoundTrip(deviceId: string, subtopic: string)
    requires '/' !in deviceId
    ensures ExtractDeviceId(BuildDeviceTopic(deviceId, subtopic)) == Some(deviceId)
  {
    DeviceIdCharacterization(BuildDeviceTopic(deviceId, subtopic), deviceId);
  }

  lemma DeviceTopicLength(deviceId: string, subtopic: string)
    ensures Utf16Length(BuildDeviceTopic(deviceId, subtopic))
         == Utf16Length(deviceId) + Utf16Length(subtopic) + 8
  {
    var head := DeviceLevel + TopicSeparator;
    assert BuildDeviceTopic(deviceId, subtopic) == head + (deviceId + (TopicSeparator + subtopic));
    Utf16LengthAppend(head, deviceId + (TopicSeparator + subtopic));
    Utf16LengthAppend(deviceId, TopicSeparator + subtopic);
    Utf16LengthAppend(TopicSeparator, subtopic);
    Utf16LengthBasic(head);
    Utf16LengthBasic(TopicSeparator);
  }

  /**
   * A built device topic can be published to exactly when neither part holds a wildcard
   * and the whole stays within the length ceiling (it is never blank and never starts with `$`).
   */
  lemma DeviceTopicPublishable(deviceId: string, subtopic: string)
    ensures IsValidPublishTopic(BuildDeviceTopic(deviceId, subtopic)) <==>
      && '+' !in deviceId && '#' !in deviceId
      && '+' !in subtopic && '#' !in subtopic
      && Utf16Length(deviceId) + Utf16Length(subtopic) + 8 <= MaxTopicLength
  {
    var t := BuildDeviceTopic(deviceId, subtopic);
    PublishTopicRule(t);
    DeviceTopicLength(deviceId, subtopic);
    DeviceTopicHead(deviceId, subtopic);
    DeviceTopicChars(deviceId, subtopic, '+');
    DeviceTopicChars(deviceId, subtopic, '#');
  }

  /** A character that is neither `/` nor in `device` occurs in a device topic exactly when it occurs in a part. */
  lemma DeviceTopicChars(deviceId: string, subtopic: string, c: char)
    requires c != '/' && c !in DeviceLevel
    ensures c in BuildDeviceTopic(deviceId, subtopic) <==> c in deviceId || c in subtopic
  {
    var head := DeviceLevel + TopicSeparator;
    assert BuildDeviceTopic(deviceId, subtopic) == head + deviceId + (TopicSeparator + subtopic);
    assert c !in head;
  }

  /** A `+` standing alone as a middle level between wildcard-free text passes the wildcard check. */
  lemma SingleLevelBetween(prefix: string, suffix: string)
    requires '+' !in prefix && '#' !in prefix && '+' !in suffix && '#' !in suffix
    ensures IsValidWildcardUsage(prefix + "/+/" + suffix)
  {
    var t := prefix + "/+/" + suffix;
    var n := |prefix|;
    forall i | 0 <= i < n ensures t[i] == prefix[i] {
    }
    forall i | n + 3 <= i < |t| ensures t[i] == suffix[i - n - 3] {
    }
    assert t[n] == '/' && t[n + 1] == '+' && t[n + 2] == '/';
    WildcardPlacement(t);
  }

  /** Two wildcard-free levels make a publishable topic when the first is not blank-led or `$`-led. */
  lemma LevelsPublishable(first: string, rest: string)
    requires |first| >= 1 && !IsWhitespace(first[0]) && first[0] != '$'
    requires '+' !in first && '#' !in first && '+' !in rest && '#' !in rest
    requires 2 * (|first| + |rest| + 1) <= MaxTopicLength
    ensures IsValidPublishTopic(first + "/" + rest)
  {
    var t := first + "/" + rest;
    assert t[0] == first[0];
    assert '+' !in t && '#' !in t;
    PublishTopicRule(t);
  }

  /** A filter with well-placed wildcards is valid when it is not blank-led or `$`-led and not too long. */
  lemma WildcardFilter(topic: string)
    requires IsValidWildcardUsage(topic)
    requires |topic| >= 1 && !IsWhitespace(topic[0]) && topic[0] != '$'
    requires 2 * |topic| <= MaxTopicLength
    ensures IsValidSubscriptionTopic(topic)
  {
  }

  /** A `+` level at the start, before wildcard-free text, passes the wildcard check. */
  lemma SingleLevelFirst(suffix: string)
    requires '+' !in suffix && '#' !in suffix
    ensures IsValidWildcardUsage("+/" + suffix)
  {
    var t := "+/" + suffix;
    forall i | 2 <= i < |t| ensures t[i] == suffix[i - 2] {
    }
    WildcardPlacement(t);
  }

  /** A `+` level at the end, after wildcard-free text, passes the wildcard check. */
  lemma SingleLevelLast(prefix: string)
    requires '+' !in prefix && '#' !in prefix
    ensures IsValidWildcardUsage(prefix + "/+")
  {
    var t := prefix + "/+";
    forall i | 0 <= i < |prefix| ensures t[i] == prefix[i] {
    }
    WildcardPlacement(t);
  }

  /** A closing `#` level after wildcard-free text passes the wildcard check. */
  lemma MultiLevelLast(prefix: string)
    requires '+' !in prefix && '#' !in prefix
    ensures IsValidWildcardUsage(prefix + "/#")
  {
    var t := prefix + "/#";
    forall i | 0 <= i < |prefix| ensures t[i] == prefix[i] {
    }
    WildcardPlacement(t);
  }

  /** A filter that is a single wildcard level on its own passes the wildcard check. */
  lemma LoneWildcards()
    ensures IsValidWildcardUsage("+") && IsValidWildcardUsage("#")
  {
    WildcardPlacement("+");
    WildcardPlacement("#");
  }

  /**
   * `device/+/<subtopic>` is a valid filter whenever the subtopic holds no wildcard and
   * the whole stays within the length ceiling.
   */
  lemma DeviceWildcardFilter(subtopic: string)
    requires '+' !in subtopic && '#' !in subtopic
    requires Utf16Length(subtopic) + 9 <= MaxTopicLength
    ensures IsValidSubscriptionTopic(BuildDeviceTopic(SingleLevelWildcard, subtopic))
  {
    DeviceTopicHead(SingleLevelWildcard, subtopic);
    DeviceTopicLength(SingleLevelWildcard, subtopic);
    Utf16LengthBasic(SingleLevelWildcard);
    assert BuildDeviceTopic(SingleLevelWildcard, subtopic) == DeviceLevel + "/+/" + subtopic;
    SingleLevelBetween(DeviceLevel, subtopic);
  }

  /** A device topic is never blank and never a `$` topic: it starts with `d`. */
  lemma DeviceTopicHead(deviceId: string, subtopic: string)
    ensures !IsBlank(BuildDeviceTopic(deviceId, subtopic))
    ensures !StartsWith(BuildDeviceTopic(deviceId, subtopic), "$")
  {
    assert BuildDeviceTopic(deviceId, subtopic)[0] == 'd';
  }

  lemma StatusPatternShape()
    ensures DeviceStatusTopicPattern == BuildDeviceTopic(SingleLevelWildcard, StatusSubtopic)
  {
  }

  lemma DataPatternShape()
    ensures DeviceDataTopicPattern == BuildDeviceTopic(SingleLevelWildcard, DataSubtopic)
  {
  }

  lemma StatusWildcardFilter()
    ensures IsValidSubscriptionTopic(BuildDeviceTopic(SingleLevelWildcard, StatusSubtopic))
  {
    Utf16LengthBasic(StatusSubtopic);
    DeviceWildcardFilter(StatusSubtopic);
  }

  lemma DataWildcardFilter()
    ensures IsValidSubscriptionTopic(BuildDeviceTopic(SingleLevelWildcard, DataSubtopic))
  {
    Utf16LengthBasic(DataSubtopic);
    DeviceWildcardFilter(DataSubtopic);
  }

  /** The wildcard filters the device helpers subscribe to are valid filters. */
  lemma DevicePatternsAreValidFilters()
    ensures IsValidSubscriptionTopic(DeviceStatusTopicPattern)
    ensures IsValidSubscriptionTopic(DeviceDataTopicPattern)
  {
    StatusPatternShape();
    DataPatternShape();
    StatusWildcardFilter();
    DataWildcardFilter();
  }

  /** A topic whose first character is not `d` names no device. */
  lemma OtherFirstLevel(topic: string)
    requires |topic| > 0 && topic[0] != DeviceLevel[0]
    ensures ExtractDeviceId(topic) == None
  {
    var id := ExtractDeviceId(topic);
    if id.Some? {
      assert false;
    }
  }

  // ---------------------------------------------------------------------------
  // Cases from `MqttTopicUtilsTest`
  // ---------------------------------------------------------------------------

  lemma RejectedPublishTopics()
    ensures !IsValidPublishTopic("")
    ensures !IsValidPublishTopic("device/+/data")
    ensures !IsValidPublishTopic("device/#")
    ensures !IsValidPublishTopic("$SYS/broker/load")
  {
    ContainsChar("device/+/data", '+');
    assert "device/+/data"[7] == '+';
    ContainsChar("device/#", '#');
    assert "device/#"[7] == '#';
  }

  lemma RejectedSingleLevelWildcards()
    ensures !IsValidSubscriptionTopic("device/+data")
    ensures !IsValidSubscriptionTopic("device/data+")
  {
    var glued := "device/+data";
    assert glued[7] == '+' && CharAfter(glued, 7) != '/';
    var trailing := "device/data+";
    assert trailing[11] == '+' && CharBefore(trailing, 11) != '/';
  }

  lemma RejectedInnerMultiLevelWildcard()
    ensures !IsValidSubscriptionTopic("device/#/data")
  {
    var inner := "device/#/data";
    IndexOfChar(inner, '#');
    assert inner[7] == '#' && '#' !in inner[..7];
  }

  lemma RejectedGluedMultiLevelWildcard()
    ensures !IsValidSubscriptionTopic("device/data#")
  {
    var glued := "device/data#";
    IndexOfChar(glued, '#');
    assert glued[11] == '#' && '#' !in glued[..11];
  }

  lemma RejectedSystemFilter()
    ensures !IsValidSubscriptionTopic("$SYS/broker/load")
    ensures !IsValidSubscriptionTopic("")
  {
  }

  lemma BuiltDeviceTopics()
    ensures BuildDeviceTopic("123", "status") == "device/123/status"
    ensures BuildDeviceTopic("sensor001", "data") == "device/sensor001/data"
  {
  }

  lemma ExtractedDeviceId()
    ensures ExtractDeviceId("device/123/status") == Some("123")
  {
    var id, sub := "123", "status";
    assert BuildDeviceTopic(id, sub) == "device/123/status";
    DeviceTopicRoundTrip(id, sub);
  }

  lemma ExtractedSensorId()
    ensures ExtractDeviceId("device/sensor001/data") == Some("sensor001")
  {
    var id, sub := "sensor001", "data";
    assert BuildDeviceTopic(id, sub) == "device/sensor001/data";
    DeviceTopicRoundTrip(id, sub);
  }

  lemma NoDeviceIds()
    ensures ExtractDeviceId("invalid/topic") == None
    ensures ExtractDeviceId("home/temperature") == None
  {
    OtherFirstLevel("invalid/topic");
    OtherFirstLevel("home/temperature");
  }

  lemma AcceptedDeviceTopic(topic: string)
    requires topic == "device/123/data"
    ensures IsValidPublishTopic(topic) && IsValidSubscriptionTopic(topic)
  {
    var id, sub := "123", "data";
    assert topic == BuildDeviceTopic(id, sub);
    Utf16LengthBasic(id);
    Utf16LengthBasic(sub);
    DeviceTopicPublishable(id, sub);
    PublishTopicIsSubscriptionTopic(topic);
  }

  lemma AcceptedPublishTopic(topic: string)
    requires topic == "home/temperature"
    ensures IsValidPublishTopic(topic)
  {
    var a, b := "home", "temperature";
    assert topic == a + "/" + b;
    LevelsPublishable(a, b);
  }

  lemma AcceptedLongerPublishTopic(topic: string)
    requires topic == "sensor/humidity/living-room"
    ensures IsValidPublishTopic(topic)
  {
    var a, b := "sensor", "humidity/living-room";
    assert topic == a + "/" + b;
    LevelsPublishable(a, b);
  }

  lemma AcceptedLoneWildcards()
    ensures IsValidSubscriptionTopic("+")
    ensures IsValidSubscriptionTopic("#")
  {
    LoneWildcards();
    WildcardFilter("+");
    WildcardFilter("#");
  }

  lemma AcceptedSingleLevelFilter(topic: string)
    requires topic == "home/+/temperature"
    ensures IsValidSubscriptionTopic(topic)
  {
    var a, b := "home", "temperature";
    assert topic == a + "/+/" + b;
    SingleLevelBetween(a, b);
    WildcardFilter(topic);
  }

  lemma AcceptedSensorFilter(topic: string)
    requires topic == "home/+/sensor"
    ensures IsValidSubscriptionTopic(topic)
  {
    var a, b := "home", "sensor";
    assert topic == a + "/+/" + b;
    SingleLevelBetween(a, b);
    WildcardFilter(topic);
  }

  lemma AcceptedTrailingSingleLevelFilter(topic: string)
    requires topic == "device/+"
    ensures IsValidSubscriptionTopic(topic)
  {
    var a := "device";
    assert topic == a + "/+";
    SingleLevelLast(a);
    WildcardFilter(topic);
  }

  lemma AcceptedLeadingSingleLevelFilter(topic: string)
    requires topic == "+/temperature"
    ensures IsValidSubscriptionTopic(topic)
  {
    var b := "temperature";
    assert topic == "+/" + b;
    SingleLevelFirst(b);
    WildcardFilter(topic);
  }

  lemma AcceptedMultiLevelFilter(topic: string)
    requires topic == "device/#"
    ensures IsValidSubscriptionTopic(topic)
  {
    var a := "device";
    assert topic == a + "/#";
    MultiLevelLast(a);
    WildcardFilter(topic);
  }

  lemma AcceptedRoomMultiLevelFilter(topic: string)
    requires topic == "home/living-room/#"
    ensures IsValidSubscriptionTopic(topic)
  {
    var a := "home/living-room";
    assert topic == a + "/#";
    MultiLevelLast(a);
    WildcardFilter(topic);
  }
}

=== FILE: mqtt_view_model.dfy ===
/**
 * `MqttViewModel`: each handler's coroutine body as one transition of the view state
 * together with the repository it calls. The clock-derived client id is a parameter.
 */
module MqttViewModel {
  import opened Nullable
  import opened KotlinText
  import opened MqttUtils
  import opened MqttModels
  import opened MqttRepository
  import MqttUseCase

  /** The state flows the screen observes. */
  datatype ViewState = ViewState(
    messages: seq<Message>,
    topics: seq<string>,
    error: Option<string>,
    isConnecting: bool,
    isPublishing: bool)

  /** The state of a new view model. */
  const Initial: ViewState := ViewState([], [], None, false, false)

  /** A handler's effect: the new view state, the new repository, the client calls made. */
  datatype Transition = Transition(view: ViewState, repo: Repo, calls: seq<Request>)

  const InvalidSubscriptionFormat: string := "Invalid subscription topic format"
  const InvalidPublishFormat: string := "Invalid publish topic format (wildcards not allowed)"
  const DisconnectionFailedLabel: string := "Disconnection failed: "
  const UnsubscriptionFailedLabel: string := "Unsubscription failed: "

  /** The error text a failed repository call leaves: `heading` and the reason or `fallback`. */
  function FailureText(o: Outcome, heading: string, fallback: string): (e: Option<string>)
    ensures e.None? <==> o.Success?
    ensures o.Failure? ==> e == Some(heading + MqttUseCase.FailureReason(o, fallback))
  {
    if o.Success? then None else Some(heading + MqttUseCase.FailureReason(o, fallback))
  }

  /**
   * `connect(brokerUrl)`: an unaccepted URL only sets the error; otherwise the repository
   * connects without credentials, and a failure sets "Connection failed: …". The `finally`
   * block leaves `isConnecting` false on every path.
   */
  function Connect(v: ViewState, r: Repo, url: string, clientId: string, t: TransportOutcome): (s: Transition)
    ensures !MqttUseCase.IsValidBrokerUrl(url) ==>
      s == Transition(v.(error := Some(MqttUseCase.InvalidBrokerUrlMessage), isConnecting := false), r, [])
    ensures MqttUseCase.IsValidBrokerUrl(url) && r.state != CONNECTED ==>
      && s.repo == Repo(if t.Ok? then CONNECTED else ERROR, true,
                        Some(Config(url, clientId, None, None, 60, 30, true, true)), r.subs)
      && s.calls == [ConnectRequest(clientId, ExtractHostFromUrl(url), ExtractPortFromUrl(url), None, true, 60)]
    ensures MqttUseCase.IsValidBrokerUrl(url) && r.state == CONNECTED ==> s.repo == r && s.calls == []
    ensures MqttUseCase.IsValidBrokerUrl(url) ==>
      (s.view.error.None? <==> r.state == CONNECTED || t.Ok?)
    ensures MqttUseCase.IsValidBrokerUrl(url) && s.view.error.Some? ==>
      s.view.error.value == MqttUseCase.ConnectionFailedLabel + t.message.GetOr("Unknown connection error")
    ensures !s.view.isConnecting
    ensures s.view.messages == v.messages && s.view.topics == v.topics && s.view.isPublishing == v.isPublishing
    ensures s.repo.subs == r.subs
    ensures Inv(r) ==> Inv(s.repo)
  {
    if !MqttUseCase.IsValidBrokerUrl(url) then
      Transition(v.(error := Some(MqttUseCase.InvalidBrokerUrlMessage), isConnecting := false), r, [])
    else
      var config := MqttUseCase.BrokerConfig(url, clientId, None, None);
      var step := MqttRepository.Connect(r, config, t);
      var error := FailureText(step.result, MqttUseCase.ConnectionFailedLabel, "Unknown connection error");
      Transition(v.(error := error, isConnecting := false), step.repo, step.calls)
  }

  /** `disconnect()`: success empties the topic list; failure keeps it and sets the error. */
  function Disconnect(v: ViewState, r: Repo, t: TransportOutcome): (s: Transition)
    ensures s.view.error.None? <==> !r.hasClient || t.Ok?
    ensures s.view.error.None? ==> s.view.topics == [] && s.repo == Fresh
    ensures s.view.error.Some? ==>
      && s.view.topics == v.topics && s.repo == r.(state := ERROR)
      && s.view.error.value == DisconnectionFailedLabel + t.message.GetOr("Unknown disconnection error")
    ensures s.view.messages == v.messages
    ensures s.calls == (if r.hasClient then [DisconnectRequest] else [])
  {
    var step := MqttRepository.Disconnect(r, t);
    var error := FailureText(step.result, DisconnectionFailedLabel, "Unknown disconnection error");
    var topics := if step.result.Success? then [] else v.topics;
    Transition(v.(error := error, topics := topics), step.repo, step.calls)
  }

  /**
   * `subscribe(topic)`: an invalid filter or a topic already in the local list only sets the
   * error; otherwise the repository subscribes with QoS 1 and, on success, the local list
   * becomes the repository's.
   */
  function Subscribe(v: ViewState, r: Repo, topic: string, t: TransportOutcome): (s: Transition)
    ensures !IsValidSubscriptionTopic(topic) ==>
      s == Transition(v.(error := Some(InvalidSubscriptionFormat)), r, [])
    ensures IsValidSubscriptionTopic(topic) && topic in v.topics ==>
      s == Transition(v.(error := Some(MqttUseCase.AlreadySubscribedLabel + topic)), r, [])
    ensures s.calls != [] <==> IsValidSubscriptionTopic(topic) && topic !in v.topics && r.hasClient
    ensures s.calls != [] ==> s.calls == [SubscribeRequest(topic, AtLeastOnce)]
    ensures IsValidSubscriptionTopic(topic) && topic !in v.topics ==>
      && (s.view.error.None? <==> r.hasClient && t.Ok?)
      && (s.view.error.None? ==> s.repo.subs == Added(r.subs, topic) && s.view.topics == s.repo.subs)
      && (s.view.error.Some? ==> s.repo == r && s.view.topics == v.topics)
      && (s.view.error.Some? ==>
            s.view.error.value == MqttUseCase.SubscriptionFailedLabel +
              (if r.hasClient then t.message.GetOr("Unknown subscription error") else NotConnectedMessage))
    ensures s.view.messages == v.messages
    ensures Inv(r) ==> Inv(s.repo)
  {
    if !IsValidSubscriptionTopic(topic) then
      Transition(v.(error := Some(InvalidSubscriptionFormat)), r, [])
    else if topic in v.topics then
      Transition(v.(error := Some(MqttUseCase.AlreadySubscribedLabel + topic)), r, [])
    else
      var step := MqttRepository.Subscribe(r, topic, t);
      var error := FailureText(step.result, MqttUseCase.SubscriptionFailedLabel, "Unknown subscription error");
      var topics := if step.result.Success? then SubscribedTopics(step.repo) else v.topics;
      Transition(v.(error := error, topics := topics), step.repo, step.calls)
  }

  /** `unsubscribe(topic)`: on success the local list becomes the repository's. */
  function Unsubscribe(v: ViewState, r: Repo, topic: string, t: TransportOutcome): (s: Transition)
    ensures s.view.error.None? <==> r.hasClient && t.Ok?
    ensures s.view.error.None? ==> s.repo.subs == Removed(r.subs, topic) && s.view.topics == s.repo.subs
    ensures s.view.error.Some? ==> s.repo == r && s.view.topics == v.topics
    ensures s.calls == (if r.hasClient then [UnsubscribeRequest(topic)] else [])
    ensures s.view.error.Some? ==>
      s.view.error.value == UnsubscriptionFailedLabel +
        (if r.hasClient then t.message.GetOr("Unknown unsubscription error") else NotConnectedMessage)
    ensures s.view.messages == v.messages
    ensures Inv(r) ==> Inv(s.repo)
  {
    var step := MqttRepository.Unsubscribe(r, topic, t);
    var error := FailureText(step.result, UnsubscriptionFailedLabel, "Unknown unsubscription error");
    var topics := if step.result.Success? then SubscribedTopics(step.repo) else v.topics;
    Transition(v.(error := error, topics := topics), step.repo, step.calls)
  }

  /** The first of the view model's publish checks to fail, if any. */
  function PublishRejection(topic: string, message: string, qos: int): (e: Option<string>)
    ensures e.None? <==> IsValidPublishTopic(topic) && !IsBlank(message) && 0 <= qos <= 2
    ensures !IsValidPublishTopic(topic) ==> e == Some(InvalidPublishFormat)
    ensures IsValidPublishTopic(topic) && IsBlank(message) ==> e == Some(MqttUseCase.EmptyMessageMessage)
    ensures IsValidPublishTopic(topic) && !IsBlank(message) && !(0 <= qos <= 2) ==>
      e == Some(MqttUseCase.QosRangeMessage)
  {
    if !IsValidPublishTopic(topic) then Some(InvalidPublishFormat)
    else if IsBlank(message) then Some(MqttUseCase.EmptyMessageMessage)
    else if !(QosAtMostOnce <= qos <= QosExactlyOnce) then Some(MqttUseCase.QosRangeMessage)
    else None
  }

  /**
   * `publish(topic, message, qos, retained)`: a rejected argument only sets the error; an
   * accepted publish that succeeds appends the sent message, marked as sent by this client.
   * `isPublishing` is false once the handler ends.
   */
  function Publish(v: ViewState, r: Repo, topic: string, message: string, t: TransportOutcome,
                   qos: int := DefaultQos, retained: bool := false): (s: Transition)
    ensures s.repo == r
    ensures PublishRejection(topic, message, qos).Some? ==>
      s == Transition(v.(error := PublishRejection(topic, message, qos), isPublishing := false), r, [])
    ensures s.calls != [] <==> PublishRejection(topic, message, qos).None? && r.hasClient
    ensures s.calls != [] ==> s.calls == [PublishRequest(topic, message, SentQos(qos), retained)]
    ensures s.view.messages == v.messages + [Message(topic, message, qos, retained, true)] ||
            s.view.messages == v.messages
    ensures s.view.messages != v.messages <==>
      PublishRejection(topic, message, qos).None? && r.hasClient && t.Ok?
    ensures PublishRejection(topic, message, qos).None? ==>
      && (s.view.error.None? <==> r.hasClient && t.Ok?)
      && (!r.hasClient ==> s.view.error == Some(MqttUseCase.PublishFailedLabel + NotConnectedMessage))
      && (r.hasClient && t.Err? ==>
            s.view.error == Some(MqttUseCase.PublishFailedLabel + t.message.GetOr("Unknown publish error")))
    ensures !s.view.isPublishing
    ensures s.view.topics == v.topics
  {
    var rejection := PublishRejection(topic, message, qos);
    if rejection.Some? then
      Transition(v.(error := rejection, isPublishing := false), r, [])
    else
      var step := MqttRepository.Publish(r, topic, message, t, qos, retained);
      var error := FailureText(step.result, MqttUseCase.PublishFailedLabel, "Unknown publish error");
      var messages := if step.result.Success?
        then v.messages + [Message(topic, message, qos, retained, true)]
        else v.messages;
      Transition(v.(messages := messages, error := error, isPublishing := false), step.repo, step.calls)
  }

  /** The collector of incoming messages: each is appended at the end. */
  function OnIncoming(v: ViewState, m: Message): (w: ViewState)
    ensures |w.messages| == |v.messages| + 1 && w.messages[..|v.messages|] == v.messages
    ensures w.messages[|v.messages|] == m
    ensures w.(messages := v.messages) == v
  {
    v.(messages := v.messages + [m])
  }

  /** A run of incoming messages, delivered one after another. */
  function Deliver(v: ViewState, incoming: seq<Message>): (w: ViewState)
    decreases |incoming|
  {
    if incoming == [] then v else Deliver(OnIncoming(v, incoming[0]), incoming[1..])
  }

  /** Incoming messages end up at the end of the list in arrival order; nothing else changes. */
  lemma {:induction false} DeliverAppends(v: ViewState, incoming: seq<Message>)
    ensures Deliver(v, incoming) == v.(messages := v.messages + incoming)
    decreases |incoming|
  {
    if incoming != [] {
      DeliverAppends(OnIncoming(v, incoming[0]), incoming[1..]);
      assert v.messages + [incoming[0]] + incoming[1..] == v.messages + incoming;
    }
  }

  /** `clearMessages()`. */
  function ClearMessages(v: ViewState): (w: ViewState)
    ensures w.messages == [] && w.(messages := v.messages) == v
  {
    v.(messages := [])
  }

  /** `clearError()`. */
  function ClearError(v: ViewState): (w: ViewState)
    ensures w.error.None? && w.(error := v.error) == v
  {
    v.(error := None)
  }

  // ---------------------------------------------------------------------------
  // The local topic list follows the repository
  // ---------------------------------------------------------------------------

  /** The view's topic list is the repository's subscription list. */
  predicate Synced(v: ViewState, r: Repo) {
    v.topics == r.subs
  }

  /** A new view model over a new repository starts in step. */
  lemma InitialSynced()
    ensures Synced(Initial, Fresh) && Inv(Fresh)
  {
  }

  /*
   * When the view model is the repository's only client, every handler keeps the topic
   * list equal to the repository's subscriptions and keeps the repository consistent.
   */

  lemma ConnectKeepsSync(v: ViewState, r: Repo, url: string, clientId: string, t: TransportOutcome)
    requires Synced(v, r) && Inv(r)
    ensures var s := Connect(v, r, url, clientId, t); Synced(s.view, s.repo) && Inv(s.repo)
  {
  }

  lemma DisconnectKeepsSync(v: ViewState, r: Repo, t: TransportOutcome)
    requires Synced(v, r) && Inv(r)
    ensures var s := Disconnect(v, r, t); Synced(s.view, s.repo) && Inv(s.repo)
  {
  }

  lemma SubscribeKeepsSync(v: ViewState, r: Repo, topic: string, t: TransportOutcome)
    requires Synced(v, r) && Inv(r)
    ensures var s := Subscribe(v, r, topic, t); Synced(s.view, s.repo) && Inv(s.repo)
  {
  }

  lemma UnsubscribeKeepsSync(v: ViewState, r: Repo, topic: string, t: TransportOutcome)
    requires Synced(v, r) && Inv(r)
    ensures var s := Unsubscribe(v, r, topic, t); Synced(s.view, s.repo) && Inv(s.repo)
  {
  }

  lemma PublishKeepsSync(v: ViewState, r: Repo, topic: string, message: string, t: TransportOutcome,
                         qos: int, retained: bool)
    requires Synced(v, r) && Inv(r)
    ensures var s := Publish(v, r, topic, message, t, qos, retained); Synced(s.view, s.repo) && Inv(s.repo)
  {
  }

  /**
   * In step with the repository, the view model's duplicate check is the repository's own:
   * subscribing through the view model to a topic already subscribed never reaches the client.
   */
  lemma NoDuplicateSubscription(v: ViewState, r: Repo, topic: string, t: TransportOutcome)
    requires Synced(v, r) && topic in r.subs
    ensures Subscribe(v, r, topic, t).calls == []
    ensures Subscribe(v, r, topic, t).repo == r
  {
  }

  /**
   * The screen's `publish(topic, message)`: QoS 1 and not retained, both in the request
   * and in the message the list records.
   */
  lemma PublishDefaults(v: ViewState, r: Repo, topic: string, message: string, t: TransportOutcome)
    ensures var s := Publish(v, r, topic, message, t);
      && (s.calls != [] ==> s.calls == [PublishRequest(topic, message, AtLeastOnce, false)])
      && (s.view.messages != v.messages ==> s.view.messages == v.messages + [Message(topic, message, 1, false, true)])
  {
  }
}

=== FILE: nullable.dfy ===
/** Kotlin's nullable types `T?`, as an option datatype. */
module Nullable {

  /** `None` stands for Kotlin's `null`. */
  datatype Option<+T> = None | Some(value: T) {

    /** Kotlin's elvis operator `x ?: default`. */
    function GetOr(default: T): (r: T)
      ensures Some? ==> r == value
      ensures None? ==> r == default
    {
      match this
      case Some(v) => v
      case None => default
    }
  }
}
